=== FILE: README.md ===
# Zen-mode configuration, modelled in Dafny

This project models `ZenModeConfig`, the persistent Do Not Disturb
("zen mode") configuration of the Android notification service. It covers:

- the configuration record: five allow flags, a sender source, an optional
  manual rule and a map of automatic rules keyed by rule id;
- its validity checks;
- its XML reader and writer, version 2 of the format;
- the textual codecs built on it:
  - booleans and ints in attributes;
  - dot-joined day lists;
  - countdown and schedule condition ids;
  - the legacy sleep-mode day parser of the version-1 format;
- the translation to and from `NotificationManager.Policy`;
- the summary line naming the automatic rules in effect.

Java's `null` is `Option`. A thrown exception is the `Thrown` case of
`Result`; it records whether the exception is a NullPointerException,
IndexOutOfBoundsException or IllegalStateException. Java `int` and `long` are
the newtypes `int32` and `int64`. `automaticRules`, an `ArrayMap`, is an
association list with unique keys (`ZenConfig.Get` / `ZenConfig.Put`). The XML
pull parser and serializer are a flat list of start-tag, end-tag and text
events; an attribute lookup returns the first attribute of that name.

Services the configuration calls but does not define are function fields of a
`Framework.Platform` value:

- `Settings.Global.isValidZenMode`;
- `Condition.isValidId`;
- the validation of the `Condition` constructor;
- `Uri.toString` / `Uri.parse`;
- `ComponentName.flattenToString` / `unflattenFromString`.

Properties that depend on them take, as hypotheses, the round trips they need.

Modules, one per concern:

- `JavaLang`: null, exceptions, fixed-width ints and the string helpers.
- `Decimal`: `Integer.parseInt`, `Long.parseLong` and `Integer.toString`.
- `Tokens`: `String.split` on one character, and joining.
- `NameValue`: name/value pairs with first-match lookup.
- `Framework`: `Uri`, `ComponentName`, `Condition` and the platform.
- `ZenConfig`: the configuration, `ZenRule` and validity.
- `DayLists`: `tryParseInt`, day lists and `XmlV1` days.
- `ConditionIds`: countdown and schedule ids.
- `NotificationPolicy`.
- `ActiveRules`: the automatic part of the condition summary line.
- `ZenXml`: the reader and writer.
- `XmlRoundTrip`: the write-then-read theorems.

Where the code and its documented format differ, the model follows the code:

- A rule's condition is read from attributes on the rule's own tag, which is
  also where the writer puts them. A nested `condition` tag is ignored.
- An automatic rule's tag carries its rule id under `id`. The condition's id
  is also written under `id`, but later, so reading finds the rule id first
  and parses it as the condition id (`XmlRoundTrip.AutomaticConditionIdIsRuleId`).
- `allowRepeatCallers` is used by the policy translation but is never written
  or read. A configuration read from XML always has it false.
- `String.split` drops trailing empty tokens, so a day list such as "1.2." is
  accepted as [1, 2].
- A schedule id whose day list does not parse is still a schedule; only its
  days are null.

## Model

| member | source | states |
|---|---|---|
| `ZenConfig.IsValid` | core/java/android/service/notification/ZenModeConfig.java:171-178 | the configuration is valid exactly when the manual rule is valid and every automatic rule is valid; the loop stops at the first invalid one |
| `ZenConfig.IsValidManualRule` | core/java/android/service/notification/ZenModeConfig.java:180-182 | valid exactly when there is no manual rule, or its zen mode is valid and a condition, if present, carries the rule's condition id |
| `ZenConfig.IsValidAutomaticRule` | core/java/android/service/notification/ZenModeConfig.java:184-187 | valid exactly when the name is non-empty, the rule is valid as a manual rule, and it has a condition id |
| `ZenConfig.SameCondition` | core/java/android/service/notification/ZenModeConfig.java:189-196 | holds exactly when a present condition has the rule's condition id |
| `ZenConfig.GenerateMinuteBuckets` | core/java/android/service/notification/ZenModeConfig.java:198-208 | the buckets are 15, 30, 45 and then 60·i for i in 1..12, strictly increasing |
| `ZenConfig.Get` | core/java/android/service/notification/ZenModeConfig.java:111 | lookup is null exactly when no slot has the key; otherwise the slot (key, rule) is in the map |
| `ZenConfig.PutIsMapUpdate` | core/java/android/service/notification/ZenModeConfig.java:309 | after `put` the key maps to the new rule, every other key is unchanged, no slot comes from elsewhere, and keys stay unique |
| `ZenConfig.PutAbsentAppends` | core/java/android/service/notification/ZenModeConfig.java:309 | putting a new key adds one slot after all existing ones |
| `ZenConfig.AutomaticRuleNames` | core/java/android/service/notification/ZenModeConfig.java:439-445 | a name (possibly null) is in the set exactly when some automatic rule has it; the set is no larger than the map |
| `DayLists.TryParseInt` | core/java/android/service/notification/ZenModeConfig.java:266-273 | the result is the default or the int the string spells; whenever the string spells an int, that int is the result |
| `DayLists.TryParseIntOfToString` | core/java/android/service/notification/ZenModeConfig.java:266-273 | a rendered int parses back to itself whatever the default |
| `DayLists.ParseDays` | core/java/android/service/notification/ZenModeConfig.java:256-262 | the tokens parse exactly when each is an int other than -1, giving one day per token, in order |
| `DayLists.TryParseDayList` | core/java/android/service/notification/ZenModeConfig.java:253-264 | a non-null list is accepted exactly when the split gives at least one token and every token is an int other than -1; the days are those ints, in order |
| `DayLists.DayListRoundTrip` | core/java/android/service/notification/ZenModeConfig.java:243-264 | a non-empty day list without -1, joined with a separator that is neither digit nor sign, parses back to itself |
| `DayLists.ToDayListRoundTrip` | core/java/android/service/notification/ZenModeConfig.java:243-264 | `tryParseDayList(toDayList(days), ".")` gives the days back, or null for a null or empty list |
| `DayLists.ToDayListIdentifiesDays` | core/java/android/service/notification/ZenModeConfig.java:243-251 | two day lists render alike exactly when they are equal, taking null as empty |
| `DayLists.TryParseDays` | core/java/android/service/notification/ZenModeConfig.java:861-869 | null gives null; the trimmed mode "nights" gives all seven days and "weeknights" Sunday to Thursday; a trimmed mode starting with "days:" but longer than it gives the day list after the prefix, split on commas; anything else gives null; an accepted mode is a non-empty list without -1 |
| `DayLists.ParseTrimmedSleepMode` | core/java/android/service/notification/ZenModeConfig.java:863-868 | on an already trimmed mode: the two named modes, the "days:" list after the prefix, or null for an unprefixed mode and for the bare prefix |
| `DayLists.LegacyDaysRoundTrip` | core/java/android/service/notification/ZenModeConfig.java:861-869 | "days:" followed by a comma-joined day list parses back to that list |
| `DayLists.IsValidSleepMode` | core/java/android/service/notification/ZenModeConfig.java:856-859 | a sleep mode is valid exactly when it is null or its days parse |
| `Tokens.SplitJoin` | core/java/android/service/notification/ZenModeConfig.java:255 | splitting a join of non-empty pieces that avoid the separator gives the pieces back |
| `Decimal.IntToStringRoundTrip` | core/java/android/service/notification/ZenModeConfig.java:269 | `Integer.parseInt(Integer.toString(i)) == i` |
| `Decimal.IntToStringInjective` | core/java/android/service/notification/ZenModeConfig.java:243-251 | distinct ints render differently |
| `ConditionIds.ToCountdownConditionId` | core/java/android/service/notification/ZenModeConfig.java:567-573 | a countdown id has scheme `condition`, authority `android`, the path countdown/&lt;time&gt; and no query |
| `ConditionIds.TryParseCountdownConditionId` | core/java/android/service/notification/ZenModeConfig.java:575-585 | the time is 0 for an invalid id, a wrong path or a non-long segment; a valid id with the path countdown/&lt;segment&gt; gives the long the segment spells, however it is spelled; a non-zero time only comes from such an id |
| `ConditionIds.IsValidCountdownConditionId` | core/java/android/service/notification/ZenModeConfig.java:587-589 | valid exactly when the id is valid, its path is countdown/&lt;segment&gt; and the segment spells a long other than 0 |
| `ConditionIds.CountdownRoundTrip` | core/java/android/service/notification/ZenModeConfig.java:567-585 | a countdown id the platform accepts parses back to its time |
| `ConditionIds.ScheduleEquals` | core/java/android/service/notification/ZenModeConfig.java:607-615 | comparing the rendered day lists is the same as comparing the days themselves, taking null as empty, along with the four times |
| `ConditionIds.ToScheduleConditionId` | core/java/android/service/notification/ZenModeConfig.java:631-639 | a schedule id has the path `schedule`; its `days`, `start` and `end` parameters hold the rendered days and H.M times |
| `ConditionIds.TryParseHourAndMinute` | core/java/android/service/notification/ZenModeConfig.java:664-671 | accepted exactly when the value has a '.' neither first nor last, before which an int spells a valid hour and after which an int spells a valid minute; the result is that hour and minute |
| `ConditionIds.HourMinuteRoundTrip` | core/java/android/service/notification/ZenModeConfig.java:664-671 | a valid hour and minute rendered as H.M parse back |
| `ConditionIds.TryParseScheduleConditionId` | core/java/android/service/notification/ZenModeConfig.java:644-662 | it throws NullPointerException exactly for a null scheme, or a null authority under the right scheme; it gives a schedule exactly for the schedule shape with both times valid, and then the fields are the parsed times and the parsed day list |
| `ConditionIds.IsValidScheduleConditionId` | core/java/android/service/notification/ZenModeConfig.java:641-642 | throws exactly when the parser does, for a null scheme or a null authority after the condition scheme; otherwise valid exactly when the id has the schedule shape and both its start and end parameters parse as hour and minute |
| `ConditionIds.ScheduleRoundTrip` | core/java/android/service/notification/ZenModeConfig.java:631-662 | a schedule with valid times and no day equal to -1 parses back equal to itself under `ScheduleInfo.equals` |
| `NotificationPolicy.ToNotificationPolicy` | core/java/android/service/notification/ZenModeConfig.java:476-506 | each category bit is set exactly when its allow flag is, no other bit is set, and the sender filter matches the source (any sender for an unknown source) |
| `NotificationPolicy.ApplyNotificationPolicy` | core/java/android/service/notification/ZenModeConfig.java:508-527 | a null policy changes nothing; otherwise each flag follows its bit and the source is a known one, anyone for an unknown filter; rules are untouched |
| `NotificationPolicy.ConfigPolicyRoundTrip` | core/java/android/service/notification/ZenModeConfig.java:476-527 | applying a configuration's own policy gives back the configuration when its source is known |
| `NotificationPolicy.PolicyConfigRoundTrip` | core/java/android/service/notification/ZenModeConfig.java:476-527 | a policy with only the five categories and a known sender filter survives being applied and converted back |
| `NotificationPolicy.ApplyPreservesValidity` | core/java/android/service/notification/ZenModeConfig.java:508-527 | applying a policy keeps a valid configuration valid |
| `ActiveRules.IsTrueOrUnknown` | core/java/android/service/notification/ZenModeConfig.java:804-807 | true exactly when the rule has no condition or its condition is in state true or unknown |
| `ActiveRules.ActiveRuleNames` | core/java/android/service/notification/ZenModeConfig.java:712-714 | exactly the names of the enabled, non-snoozing, true-or-unknown rules are selected; a one-slot map gives its name exactly when its rule is active |
| `ActiveRules.ActiveRuleNamesAppend` | core/java/android/service/notification/ZenModeConfig.java:712-714 | selection distributes over concatenation of the map's slots, so names come out in map order |
| `ActiveRules.Summarize` | core/java/android/service/notification/ZenModeConfig.java:711-724 | the summary loop can only throw NullPointerException, and with no names it keeps the summary |
| `ActiveRules.SummaryOfNamedRules` | core/java/android/service/notification/ZenModeConfig.java:711-724 | with non-empty names the summary is empty exactly when no rule is active, and a single active rule is reported by its own name |
| `ActiveRules.EmptyNameSkipped` | core/java/android/service/notification/ZenModeConfig.java:715-716 | an empty name leaves an empty summary empty |
| `ActiveRules.NullNameThenAnotherThrows` | core/java/android/service/notification/ZenModeConfig.java:715-716 | a null name stored in the summary makes the next active rule throw NullPointerException |
| `ZenXml.ParseBoolean` | core/java/android/service/notification/ZenModeConfig.java:416-420 | true exactly for the four letters of "true", each in either case |
| `ZenXml.ParseBooleanOfToString` | core/java/android/service/notification/ZenModeConfig.java:416-420 | a written boolean reads back as itself |
| `ZenXml.SafeBoolean` | core/java/android/service/notification/ZenModeConfig.java:416-420 | a missing or empty attribute gives the default; any other value gives whether it reads "true" in some letter case, so "yes" gives false |
| `ZenXml.SafeInt` | core/java/android/service/notification/ZenModeConfig.java:422-425 | a missing attribute, or one that is not an int, gives the default; an attribute that spells an int gives that int |
| `ZenXml.SafeComponentName` | core/java/android/service/notification/ZenModeConfig.java:427-431 | a missing or empty attribute gives null; any other value gives exactly what unflattening it gives |
| `ZenXml.SafeUri` | core/java/android/service/notification/ZenModeConfig.java:433-437 | null exactly for a missing or empty attribute; otherwise the parsed value |
| `ZenXml.TryParseZenMode` | core/java/android/service/notification/ZenModeConfig.java:673-676 | a value that spells a valid zen mode gives that mode; a missing or non-int value gives the default; the result is always the default or a valid mode the value spells |
| `ZenXml.ReadConditionXml` | core/java/android/service/notification/ZenModeConfig.java:381-396 | null for a missing or empty id; with an id, a condition is returned exactly when the platform accepts the condition built from the parsed id, the summary and line attributes, and icon, state and flags (each -1 when missing) |
| `ZenXml.WriteConditionXml` | core/java/android/service/notification/ZenModeConfig.java:398-406 | writing succeeds exactly when summary, line1 and line2 are present (NullPointerException otherwise), giving seven attributes led by the id |
| `ZenXml.ConditionAttributeListLookup` | core/java/android/service/notification/ZenModeConfig.java:398-406 | each of the seven written attributes is found under its own name |
| `ZenXml.ReadRuleXml` | core/java/android/service/notification/ZenModeConfig.java:346-361 | a rule is returned exactly when the `zen` attribute parses to a valid zen mode and, where a condition is required, the condition can be read; its enabled flag defaults to true, snoozing to false, and its condition id and component are the parsed attributes |
| `ZenXml.WriteRuleXml` | core/java/android/service/notification/ZenModeConfig.java:363-379 | writing succeeds exactly when the condition, if any, is writable; the rule's own attributes come first, followed by the condition's when there is one |
| `ZenXml.RuleAttributeListLookup` | core/java/android/service/notification/ZenModeConfig.java:363-379 | each written rule attribute is found under its own name, and an absent optional one is not found |
| `ZenXml.ReadAutomatic` | core/java/android/service/notification/ZenModeConfig.java:305-310 | an automatic tag without id or with an unreadable rule changes nothing; otherwise its rule is stored under its id and nothing else changes |
| `ZenXml.ReadEvent` | core/java/android/service/notification/ZenModeConfig.java:289-311 | an event throws exactly when it is an `allow` tag whose source is unknown (IndexOutOfBoundsException); an `allow` tag reads the allow attributes, `manual` replaces the manual rule with the rule read without a required condition, `automatic` stores a slot, and any other event leaves the configuration unchanged |
| `ZenXml.ReadAllow` | core/java/android/service/notification/ZenModeConfig.java:293-299 | calls and messages default to off, reminders and events to on, the source to anyone; each flag and the source are the parsed attributes; the repeat-callers flag and the rules are untouched |
| `ZenXml.ReadBody` | core/java/android/service/notification/ZenModeConfig.java:287-314 | the loop either loads a configuration or throws an exception other than NullPointerException |
| `ZenXml.ReadBodyOutcome` | core/java/android/service/notification/ZenModeConfig.java:287-314 | the loop returns exactly when a closing `zen` tag comes with no bad `allow` before it; it throws IndexOutOfBoundsException exactly when a bad `allow` comes first, and IllegalStateException exactly when the events run out |
| `ZenXml.ReadXml` | core/java/android/service/notification/ZenModeConfig.java:275-315 | null exactly when the document does not open with a `zen` tag; the version-1 reader is chosen exactly when the version is 1; otherwise a configuration is loaded exactly when a closing `zen` tag comes with no bad `allow` source before it, a bad source throws IndexOutOfBoundsException, and running out of events without one throws IllegalStateException |
| `ZenXml.ReadBodyWithoutAllow` | core/java/android/service/notification/ZenModeConfig.java:287-311 | before a closing `zen` tag, events other than `allow` tags leave the five persisted flags and the repeat-callers flag unchanged, and the loop returns |
| `ZenXml.ReadXmlWithoutAllow` | core/java/android/service/notification/ZenModeConfig.java:104-108 | a version-2 document with a closing tag and no `allow` tag loads a configuration with the defaults of a fresh one: calls and messages off, reminders and events on, senders from anyone |
| `ZenXml.ReadXmlEmptyDocument` | core/java/android/service/notification/ZenModeConfig.java:104-111 | an empty `zen` element reads as a fresh configuration, with no manual rule and no automatic rules |
| `ZenXml.ReadXmlInvariant` | core/java/android/service/notification/ZenModeConfig.java:275-315 | every configuration read has unique rule ids, a known source and no repeat callers; every rule has a valid zen mode and every automatic rule a condition |
| `ZenXml.WriteManual` | core/java/android/service/notification/ZenModeConfig.java:329-333 | nothing is written without a manual rule; otherwise a `manual` start tag carrying the rule's attributes and its end tag, written exactly when the rule is writable, otherwise NullPointerException |
| `ZenXml.WriteAutomaticRules` | core/java/android/service/notification/ZenModeConfig.java:334-342 | two events per slot, written exactly when every rule is writable, otherwise NullPointerException, and none of them closes the `zen` element |
| `ZenXml.WriteAutomaticRulesLayout` | core/java/android/service/notification/ZenModeConfig.java:334-342 | slot `k` becomes events `2k` and `2k + 1`: an `automatic` start tag with the slot's id followed by the rule's attributes, then its end tag |
| `ZenXml.WriteBody` | core/java/android/service/notification/ZenModeConfig.java:321-342 | the body is written exactly when every rule is writable, and it contains no closing `zen` tag |
| `ZenXml.WriteXml` | core/java/android/service/notification/ZenModeConfig.java:317-344 | the document is a version-2 `zen` element around the body |
| `XmlRoundTrip.ConditionRoundTrip` | core/java/android/service/notification/ZenModeConfig.java:381-406 | a written condition whose id and ints survive their codecs is read back unchanged |
| `XmlRoundTrip.RuleRoundTrip` | core/java/android/service/notification/ZenModeConfig.java:346-379 | a rule whose fields survive their codecs is read back unchanged, also when a condition is required and the rule has one |
| `XmlRoundTrip.AutomaticConditionIdIsRuleId` | core/java/android/service/notification/ZenModeConfig.java:339 | on an `automatic` tag the condition id read back is the rule id parsed as a Uri, not the condition's own id |
| `XmlRoundTrip.AutomaticRuleRoundTrip` | core/java/android/service/notification/ZenModeConfig.java:334-342 | an automatic rule with a condition whose id is the rule id is read back unchanged |
| `XmlRoundTrip.AutomaticRuleWithoutCondition` | core/java/android/service/notification/ZenModeConfig.java:334-342 | an automatic rule without a condition comes back with a bare condition built from its id if the platform accepts that, and is dropped otherwise |
| `XmlRoundTrip.ReadAllowRoundTrip` | core/java/android/service/notification/ZenModeConfig.java:321-327 | the written `allow` element restores the four persisted flags and the source |
| `XmlRoundTrip.ReadManualRoundTrip` | core/java/android/service/notification/ZenModeConfig.java:329-333 | the written `manual` element restores the manual rule |
| `XmlRoundTrip.ReadAutomaticRoundTrip` | core/java/android/service/notification/ZenModeConfig.java:334-342 | the written `automatic` elements rebuild the same map, slots in the same order |
| `XmlRoundTrip.WriteThenRead` | core/java/android/service/notification/ZenModeConfig.java:275-344 | writing a configuration whose rules survive their codecs succeeds, and reading it back gives the same configuration with repeat callers off |

## Left out

- Parcelling (`ZenModeConfig(Parcel)`, `writeToParcel`, `CREATOR`), `toString`, `sourceToString`, `equals`, `hashCode` and `copy`: object plumbing with no behaviour to prove beyond field copying.
- `toTimeCondition`, and the manual and countdown parts of `getConditionLine`: they read the clock, the locale and the resources.
- `newRuleId`: it draws a random UUID.
- Logging through `Slog`.
- `XmlV1.readXml` and the migration callback: reading a version-1 document ends in `ZenXml.LegacyVersion`. Of the version-1 code, only `tryParseDays` and `isValidSleepMode` are modelled.
- `Settings.Global.isValidZenMode`, `Condition.isValidId`, the `Condition` constructor's checks, `Uri` and `ComponentName` text forms: platform code outside this class, taken as parameters.
- `XmlPullParserException` and `IOException` from the parser and serializer: the events are given as a list, which cannot fail to read.
- Null values stored in `automaticRules`: the map holds rules, not nullable rules.
- The hash order of `ArrayMap`: slots keep insertion order, which the round-trip theorems rely on.
- Non-ASCII digits accepted by `Integer.parseInt`: only ASCII digits are modelled.
- ActiveRules.Summarize: the localised "%1$s, %2$s" resource is the `combine` parameter, so nothing is stated about the text of a combined summary.
- ZenConfig.SameCondition: compares condition ids as `Uri` records field by field, where `Uri.equals` compares their string forms; the two agree only if the platform's text form is one-to-one on records, which the model does not state.
- ZenXml.ReadBody: its contract states only the outcome's shape; which events lead to which outcome is the lemma `ZenXml.ReadBodyOutcome`.

=== FILE: active_rules.dfy ===
/**
 Which automatic rules are currently in effect, as the condition summary line
 reports them when there is no manual rule: the enabled, non-snoozing rules
 whose condition is true or unknown, in map order.
 */
module ActiveRules {
  import opened JavaLang
  import opened Framework
  import opened ZenConfig

  /** `ZenRule.isTrueOrUnknown`: no condition, or one in state true or unknown. */
  function IsTrueOrUnknown(rule: Rule): (b: bool)
    ensures rule.condition.None? ==> b
    ensures rule.condition.Some? && (rule.condition.value.state == STATE_FALSE || rule.condition.value.state == STATE_ERROR) ==> !b
    ensures rule.condition.Some? && !b ==> rule.condition.value.state != STATE_TRUE && rule.condition.value.state != STATE_UNKNOWN
    ensures b ==> rule.condition.None? || rule.condition.value.state == STATE_TRUE || rule.condition.value.state == STATE_UNKNOWN
  {
    rule.condition.None? || rule.condition.value.state == STATE_TRUE
      || rule.condition.value.state == STATE_UNKNOWN
  }

  /** A rule the summary line names. */
  predicate IsActive(rule: Rule) {
    rule.enabled && !rule.snoozing && IsTrueOrUnknown(rule)
  }

  /** The names of the active automatic rules, in map order. */
  function ActiveRuleNames(entries: seq<AutomaticEntry>): (names: seq<Option<string>>)
    ensures |names| <= |entries|
    ensures forall k :: 0 <= k < |names| ==>
              exists j :: 0 <= j < |entries| && IsActive(entries[j].rule) && entries[j].rule.name == names[k]
    ensures forall j :: 0 <= j < |entries| && IsActive(entries[j].rule) ==> entries[j].rule.name in names
    ensures (forall j :: 0 <= j < |entries| ==> !IsActive(entries[j].rule)) ==> names == []
    ensures |entries| == 1 ==> names == (if IsActive(entries[0].rule) then [entries[0].rule.name] else [])
  {
    if |entries| == 0 then []
    else
      var rest := ActiveRuleNames(entries[1..]);
      if IsActive(entries[0].rule) then [entries[0].rule.name] + rest else rest
  }

  /** Selection keeps map order: it distributes over concatenation. */
  lemma {:induction false} ActiveRuleNamesAppend(a: seq<AutomaticEntry>, b: seq<AutomaticEntry>)
    ensures ActiveRuleNames(a + b) == ActiveRuleNames(a) + ActiveRuleNames(b)
    decreases |a|
  {
    if |a| > 0 {
      assert (a + b)[1..] == a[1..] + b;
      ActiveRuleNamesAppend(a[1..], b);
    } else {
      assert a + b == b;
    }
  }

  /** The localised "%1$s, %2$s" resource joining the summary so far with the
      next name. */
  type Combine = (string, Option<string>) -> string

  /** The loop that builds the summary line from the selected names. The summary
      starts empty; a name replaces an empty summary (so empty names are skipped
      until a non-empty one arrives) and is otherwise appended with `combine`,
      the localised "%1$s, %2$s" resource. A null name stored in the summary
      makes the next `isEmpty` call throw. */
  function Summarize(summary: Option<string>, names: seq<Option<string>>,
                     combine: Combine): (r: Result<Option<string>>)
    ensures r.Thrown? ==> r.exception == NullPointerException
    ensures |names| == 0 ==> r == Ok(summary)
    decreases |names|
  {
    if |names| == 0 then Ok(summary)
    else if summary.None? then Thrown(NullPointerException)
    else
      var next := if summary.value == "" then names[0] else Some(combine(summary.value, names[0]));
      Summarize(next, names[1..], combine)
  }

  predicate AllNamed(names: seq<Option<string>>) {
    forall k :: 0 <= k < |names| ==> names[k].Some? && names[k].value != ""
  }

  /** With only non-empty names and a combination that never yields "", the
      summary is empty exactly when no rule is active, and a single active rule
      is reported by its own name. */
  lemma {:induction false} SummaryOfNamedRules(summary: string, names: seq<Option<string>>,
                                               combine: Combine)
    requires AllNamed(names)
    requires forall a, b :: combine(a, b) != ""
    ensures Summarize(Some(summary), names, combine).Ok?
    ensures Summarize(Some(summary), names, combine).value.Some?
    ensures Summarize(Some(summary), names, combine).value.value == "" <==> summary == "" && |names| == 0
    ensures summary == "" && |names| == 1 ==> Summarize(Some(summary), names, combine) == Ok(names[0])
    decreases |names|
  {
    if |names| > 0 {
      var next := if summary == "" then names[0] else Some(combine(summary, names[0]));
      assert next.Some? && next.value != "";
      SummaryOfNamedRules(next.value, names[1..], combine);
    }
  }

  /** A leading empty name leaves no trace in an empty summary. */
  lemma EmptyNameSkipped(names: seq<Option<string>>, combine: Combine)
    ensures Summarize(Some(""), [Some("")] + names, combine) == Summarize(Some(""), names, combine)
  {
    assert ([Some("")] + names)[1..] == names;
  }

  /** A null name reaching an empty summary is stored, and the next active
      rule then makes the loop throw. */
  lemma NullNameThenAnotherThrows(name: Option<string>, names: seq<Option<string>>,
                                  combine: Combine)
    ensures Summarize(Some(""), [None, name] + names, combine) == Thrown(NullPointerException)
  {
    var all := [None, name] + names;
    assert all[0] == None && all[1..] == [name] + names;
  }
}

=== FILE: condition_ids.dfy ===
/**
 The built-in condition ids: countdown ids `condition://android/countdown/<millis>`
 and schedule ids `condition://android/schedule?days=..&start=H.M&end=H.M`,
 built and parsed over the structured Uri record.
 */
module ConditionIds {
  import opened JavaLang
  import opened NameValue
  import opened Decimal
  import opened Tokens
  import opened Framework
  import opened DayLists

  /** Authority of the built-in conditions. */
  const SYSTEM_AUTHORITY: string := "android"
  const COUNTDOWN_PATH: string := "countdown"
  const SCHEDULE_PATH: string := "schedule"

  /** `toCountdownConditionId`. */
  function ToCountdownConditionId(time: int64): (id: Uri)
    ensures id.scheme == Some(CONDITION_SCHEME) && id.authority == Some(SYSTEM_AUTHORITY)
    ensures id.pathSegments == [COUNTDOWN_PATH, IntToString(time as int)]
    ensures id.query == []
  {
    Uri(Some(CONDITION_SCHEME), Some(SYSTEM_AUTHORITY), [COUNTDOWN_PATH, IntToString(time as int)], [])
  }

  /** `tryParseCountdownConditionId`: the time of a countdown id, and 0 for an
      id that is not valid, has other than two path segments, does not start
      with "countdown", or whose second segment is not a long. */
  function TryParseCountdownConditionId(p: Platform, id: Uri): (time: int64)
    ensures !p.isValidId(id, SYSTEM_AUTHORITY) ==> time == 0
    ensures |id.pathSegments| != 2 || id.pathSegments[0] != COUNTDOWN_PATH ==> time == 0
    ensures |id.pathSegments| == 2 && ParseLong(id.pathSegments[1]).None? ==> time == 0
    ensures time != 0 ==> p.isValidId(id, SYSTEM_AUTHORITY) && |id.pathSegments| == 2
                          && id.pathSegments[0] == COUNTDOWN_PATH
                          && ParseLong(id.pathSegments[1]) == Some(time)
    ensures && p.isValidId(id, SYSTEM_AUTHORITY)
            && |id.pathSegments| == 2 && id.pathSegments[0] == COUNTDOWN_PATH
            && ParseLong(id.pathSegments[1]).Some?
            ==> time == ParseLong(id.pathSegments[1]).value
  {
    if !p.isValidId(id, SYSTEM_AUTHORITY) then 0
    else if |id.pathSegments| != 2 || id.pathSegments[0] != COUNTDOWN_PATH then 0
    else
      match ParseLong(id.pathSegments[1])
      case Some(t) => t
      case None => 0
  }

  /** `isValidCountdownConditionId`. */
  function IsValidCountdownConditionId(p: Platform, id: Uri): (b: bool)
    ensures b <==> && p.isValidId(id, SYSTEM_AUTHORITY)
                   && |id.pathSegments| == 2 && id.pathSegments[0] == COUNTDOWN_PATH
                   && ParseLong(id.pathSegments[1]).Some? && ParseLong(id.pathSegments[1]).value != 0
  {
    TryParseCountdownConditionId(p, id) != 0
  }

  /** A countdown id parses back to its time, provided the platform accepts it
      as a condition id. */
  lemma CountdownRoundTrip(p: Platform, time: int64)
    requires p.isValidId(ToCountdownConditionId(time), SYSTEM_AUTHORITY)
    ensures TryParseCountdownConditionId(p, ToCountdownConditionId(time)) == time
  {
    LongToStringRoundTrip(time);
  }

  /** `ZenModeConfig.ScheduleInfo`; a null day list is None. */
  datatype ScheduleInfo = ScheduleInfo(
    days: Option<seq<int32>>,
    startHour: int32,
    startMinute: int32,
    endHour: int32,
    endMinute: int32)

  /** `ScheduleInfo.equals`: compares the dot-joined day lists and the four times. */
  function ScheduleEquals(a: ScheduleInfo, b: ScheduleInfo): (same: bool)
    ensures same <==>
              && DaysOrEmpty(a.days) == DaysOrEmpty(b.days)
              && a.startHour == b.startHour && a.startMinute == b.startMinute
              && a.endHour == b.endHour && a.endMinute == b.endMinute
  {
    ToDayListIdentifiesDays(a.days, b.days);
    && ToDayList(a.days) == ToDayList(b.days)
    && a.startHour == b.startHour
    && a.startMinute == b.startMinute
    && a.endHour == b.endHour
    && a.endMinute == b.endMinute
  }

  predicate IsValidHour(v: int32) {
    0 <= v < 24
  }

  predicate IsValidMinute(v: int32) {
    0 <= v < 60
  }

  /** An hour and a minute of the day. */
  datatype HourMinute = HourMinute(hour: int32, minute: int32)

  /** `schedule.startHour + "." + schedule.startMinute`. */
  function HourMinuteText(hour: int32, minute: int32): string {
    IntToString(hour as int) + "." + IntToString(minute as int)
  }

  /** `toScheduleConditionId`. */
  function ToScheduleConditionId(schedule: ScheduleInfo): (id: Uri)
    ensures id.scheme == Some(CONDITION_SCHEME) && id.authority == Some(SYSTEM_AUTHORITY)
    ensures id.pathSegments == [SCHEDULE_PATH]
    ensures QueryParameter(id, "days") == Some(ToDayList(schedule.days))
    ensures QueryParameter(id, "start") == Some(HourMinuteText(schedule.startHour, schedule.startMinute))
    ensures QueryParameter(id, "end") == Some(HourMinuteText(schedule.endHour, schedule.endMinute))
  {
    var query := [Pair("days", ToDayList(schedule.days)),
                  Pair("start", HourMinuteText(schedule.startHour, schedule.startMinute)),
                  Pair("end", HourMinuteText(schedule.endHour, schedule.endMinute))];
    assert |"days"| != |"end"| && |"start"| != |"end"| && |"days"| != |"start"|;
    assert First(query, "end") == First(query[1..], "end") == First(query[2..], "end");
    assert First(query, "start") == First(query[1..], "start");
    Uri(Some(CONDITION_SCHEME), Some(SYSTEM_AUTHORITY), [SCHEDULE_PATH], query)
  }

  /** `tryParseHourAndMinute`: "H.M" with a '.' neither first nor last before
      which is a valid hour and after which is a valid minute; otherwise null. */
  function TryParseHourAndMinute(value: Option<string>): (r: Option<HourMinute>)
    ensures r.Some? ==> IsValidHour(r.value.hour) && IsValidMinute(r.value.minute)
    ensures r.Some? ==> value.Some? && var i := IndexOf(value.value, '.');
                        1 <= i < |value.value| - 1
                        && ParseInt(value.value[..i]) == Some(r.value.hour)
                        && ParseInt(value.value[i + 1..]) == Some(r.value.minute)
    ensures value.Some? ==>
              var v := value.value;
              var i := IndexOf(v, '.');
              (&& 1 <= i < |v| - 1
               && ParseInt(v[..i]).Some? && IsValidHour(ParseInt(v[..i]).value)
               && ParseInt(v[i + 1..]).Some? && IsValidMinute(ParseInt(v[i + 1..]).value))
              ==> r == Some(HourMinute(ParseInt(v[..i]).value, ParseInt(v[i + 1..]).value))
  {
    if IsEmpty(value) then None
    else
      var v := value.value;
      var i := IndexOf(v, '.');
      if i < 1 || i >= |v| - 1 then None
      else
        var hour := TryParseInt(Some(v[..i]), -1);
        var minute := TryParseInt(Some(v[i + 1..]), -1);
        if IsValidHour(hour) && IsValidMinute(minute) then Some(HourMinute(hour, minute)) else None
  }

  /** A valid hour and minute rendered as "H.M" parse back. */
  lemma HourMinuteRoundTrip(hour: int32, minute: int32)
    requires IsValidHour(hour) && IsValidMinute(minute)
    ensures TryParseHourAndMinute(Some(HourMinuteText(hour, minute))) == Some(HourMinute(hour, minute))
  {
    var h := IntToString(hour as int);
    var m := IntToString(minute as int);
    var v := HourMinuteText(hour, minute);
    assert v[|h|] == '.';
    assert '.' !in h by {
      assert forall k :: 0 <= k < |h| ==> IsDigit(h[k]) || h[k] == '-';
    }
    assert v[..|h|] == h;
    assert IndexOf(v, '.') == |h|;
    assert v[|h| + 1..] == m;
    IntToStringRoundTrip(hour);
    IntToStringRoundTrip(minute);
  }

  /** Whether an id is a schedule id: it names the condition scheme, the
      system authority and the single path segment "schedule". */
  predicate IsScheduleShape(id: Uri) {
    && id.scheme == Some(CONDITION_SCHEME)
    && id.authority == Some(SYSTEM_AUTHORITY)
    && id.pathSegments == [SCHEDULE_PATH]
  }

  /** `tryParseScheduleConditionId`. Comparing a null scheme, or a null
      authority after a matching scheme, throws NullPointerException. A day
      list that does not parse leaves the days null without rejecting the id. */
  function TryParseScheduleConditionId(id: Option<Uri>): (r: Result<Option<ScheduleInfo>>)
    ensures r.Thrown? ==> r.exception == NullPointerException
    ensures r.Thrown? <==> id.Some? && (id.value.scheme.None?
                             || (id.value.scheme == Some(CONDITION_SCHEME) && id.value.authority.None?))
    ensures r.Ok? && r.value.Some? <==>
              id.Some? && IsScheduleShape(id.value)
              && TryParseHourAndMinute(QueryParameter(id.value, "start")).Some?
              && TryParseHourAndMinute(QueryParameter(id.value, "end")).Some?
    ensures r.Ok? && r.value.Some? ==>
              var s := r.value.value;
              var start := TryParseHourAndMinute(QueryParameter(id.value, "start")).value;
              var end := TryParseHourAndMinute(QueryParameter(id.value, "end")).value;
              && s.days == TryParseDayList(QueryParameter(id.value, "days"), '.')
              && s.startHour == start.hour && s.startMinute == start.minute
              && s.endHour == end.hour && s.endMinute == end.minute
  {
    if id.None? then Ok(None)
    else
      var u := id.value;
      if u.scheme.None? then Thrown(NullPointerException)
      else if u.scheme.value != CONDITION_SCHEME then Ok(None)
      else if u.authority.None? then Thrown(NullPointerException)
      else if u.authority.value != SYSTEM_AUTHORITY then Ok(None)
      else if |u.pathSegments| != 1 || u.pathSegments[0] != SCHEDULE_PATH then Ok(None)
      else
        var start := TryParseHourAndMinute(QueryParameter(u, "start"));
        var end := TryParseHourAndMinute(QueryParameter(u, "end"));
        if start.None? || end.None? then Ok(None)
        else
          var days := TryParseDayList(QueryParameter(u, "days"), '.');
          Ok(Some(ScheduleInfo(days, start.value.hour, start.value.minute, end.value.hour, end.value.minute)))
  }

  /** `isValidScheduleConditionId`; it lets the parser's NullPointerException through. */
  function IsValidScheduleConditionId(id: Uri): (r: Result<bool>)
    ensures r.Ok? && r.value ==> IsScheduleShape(id)
    ensures r.Thrown? ==> id.scheme.None? || id.authority.None?
    ensures r.Thrown? <==> id.scheme.None? || (id.scheme == Some(CONDITION_SCHEME) && id.authority.None?)
    ensures r.Ok? ==> (r.value <==> && IsScheduleShape(id)
                                     && TryParseHourAndMinute(QueryParameter(id, "start")).Some?
                                     && TryParseHourAndMinute(QueryParameter(id, "end")).Some?)
  {
    match TryParseScheduleConditionId(Some(id))
    case Thrown(e) => Thrown(e)
    case Ok(parsed) => Ok(parsed.Some?)
  }

  /** A schedule with valid times and no day equal to -1 survives building and
      parsing its id, up to `ScheduleInfo.equals`. */
  lemma ScheduleRoundTrip(schedule: ScheduleInfo)
    requires IsValidHour(schedule.startHour) && IsValidMinute(schedule.startMinute)
    requires IsValidHour(schedule.endHour) && IsValidMinute(schedule.endMinute)
    requires schedule.days.Some? ==> forall k :: 0 <= k < |schedule.days.value| ==> schedule.days.value[k] != -1
    ensures var r := TryParseScheduleConditionId(Some(ToScheduleConditionId(schedule)));
            r.Ok? && r.value.Some? && ScheduleEquals(r.value.value, schedule)
  {
    HourMinuteRoundTrip(schedule.startHour, schedule.startMinute);
    HourMinuteRoundTrip(schedule.endHour, schedule.endMinute);
    ToDayListRoundTrip(schedule.days);
  }
}

=== FILE: day_lists.dfy ===
/**
 Integer and weekday-list tokenising of the zen-mode configuration: the lenient
 `tryParseInt`, the dot-joined day list of schedule condition ids and its
 parser, and the legacy sleep-mode day parser of the version-1 format.
 */
module DayLists {
  import opened JavaLang
  import opened Decimal
  import opened Tokens

  /** `java.util.Calendar` weekday constants. */
  const SUNDAY: int32 := 1
  const MONDAY: int32 := 2
  const TUESDAY: int32 := 3
  const WEDNESDAY: int32 := 4
  const THURSDAY: int32 := 5
  const FRIDAY: int32 := 6
  const SATURDAY: int32 := 7

  const ALL_DAYS: seq<int32> := [SUNDAY, MONDAY, TUESDAY, WEDNESDAY, THURSDAY, FRIDAY, SATURDAY]
  const WEEKNIGHT_DAYS: seq<int32> := [SUNDAY, MONDAY, TUESDAY, WEDNESDAY, THURSDAY]
  const WEEKEND_DAYS: seq<int32> := [FRIDAY, SATURDAY]

  /** Legacy sleep modes. */
  const SLEEP_MODE_NIGHTS: string := "nights"
  const SLEEP_MODE_WEEKNIGHTS: string := "weeknights"
  const SLEEP_MODE_DAYS_PREFIX: string := "days:"

  /** `tryParseInt`: the int `value` spells, or `defValue` when it is null,
      empty or not a decimal int. */
  function TryParseInt(value: Option<string>, defValue: int32): (r: int32)
    ensures r == defValue || (value.Some? && ParseInt(value.value) == Some(r))
    ensures value.Some? && ParseInt(value.value).Some? ==> r == ParseInt(value.value).value
  {
    if IsEmpty(value) then defValue
    else
      match ParseInt(value.value)
      case Some(v) => v
      case None => defValue
  }

  lemma TryParseIntOfToString(i: int32, defValue: int32)
    ensures TryParseInt(Some(IntToString(i as int)), defValue) == i
  {
    IntToStringRoundTrip(i);
  }

  /** The decimal renderings of `days`, in order. */
  function DayStrings(days: seq<int32>): (parts: seq<string>)
    ensures |parts| == |days|
    ensures forall k :: 0 <= k < |days| ==> parts[k] == IntToString(days[k] as int)
  {
    seq(|days|, k requires 0 <= k < |days| => IntToString(days[k] as int))
  }

  /** `toDayList`: the days joined by '.', and "" for a null or empty list. */
  function ToDayList(days: Option<seq<int32>>): string {
    if days.None? || |days.value| == 0 then "" else Join(DayStrings(days.value), '.')
  }

  /** A token the day-list parser accepts: a decimal int other than -1. */
  predicate IsDayToken(token: string) {
    TryParseInt(Some(token), -1) != -1
  }

  /** The parse of every token, or null as soon as one is rejected. */
  function ParseDays(tokens: seq<string>): (r: Option<seq<int32>>)
    ensures r.Some? <==> forall k :: 0 <= k < |tokens| ==> IsDayToken(tokens[k])
    ensures r.Some? ==> |r.value| == |tokens|
    ensures r.Some? ==> forall k :: 0 <= k < |tokens| ==>
                          r.value[k] != -1 && ParseInt(tokens[k]) == Some(r.value[k])
  {
    if |tokens| == 0 then Some([])
    else
      var day := TryParseInt(Some(tokens[0]), -1);
      if day == -1 then None
      else
        match ParseDays(tokens[1..])
        case None => None
        case Some(rest) => Some([day] + rest)
  }

  /** `tryParseDayList`: a list is rejected whole when it is null, splits into
      no tokens, or has a token that is not an int or is -1. */
  function TryParseDayList(dayList: Option<string>, sep: char): (r: Option<seq<int32>>)
    ensures r.Some? <==> dayList.Some? && 0 < |Split(dayList.value, sep)|
                         && forall k :: 0 <= k < |Split(dayList.value, sep)| ==> IsDayToken(Split(dayList.value, sep)[k])
    ensures r.Some? ==> 0 < |r.value| == |Split(dayList.value, sep)|
    ensures r.Some? ==> forall k :: 0 <= k < |r.value| ==>
                          r.value[k] != -1 && ParseInt(Split(dayList.value, sep)[k]) == Some(r.value[k])
  {
    if dayList.None? then None
    else
      var tokens := Split(dayList.value, sep);
      if |tokens| == 0 then None else ParseDays(tokens)
  }

  /** Day lists joined with a separator that is neither a digit nor a sign
      parse back to the same days, whenever no day is -1. */
  lemma DayListRoundTrip(days: seq<int32>, sep: char)
    requires 0 < |days|
    requires forall k :: 0 <= k < |days| ==> days[k] != -1
    requires !IsDigit(sep) && sep != '-'
    ensures TryParseDayList(Some(Join(DayStrings(days), sep)), sep) == Some(days)
  {
    var parts := DayStrings(days);
    SplitJoin(parts, sep);
    forall k | 0 <= k < |days|
      ensures ParseInt(parts[k]) == Some(days[k])
    {
      IntToStringRoundTrip(days[k]);
    }
    var r := TryParseDayList(Some(Join(parts, sep)), sep);
    assert r.value == days;
  }

  /** `toDayList` followed by `tryParseDayList` gives back a non-empty day list
      and gives null for a null or empty one. */
  lemma ToDayListRoundTrip(days: Option<seq<int32>>)
    requires days.Some? ==> forall k :: 0 <= k < |days.value| ==> days.value[k] != -1
    ensures TryParseDayList(Some(ToDayList(days)), '.') ==
              if days.None? || |days.value| == 0 then None else days
  {
    if days.Some? && 0 < |days.value| {
      DayListRoundTrip(days.value, '.');
    } else {
      assert Split("", '.') == [""];
    }
  }

  /** A null and an empty day list render alike; otherwise the rendering fixes
      the list, order included. */
  function DaysOrEmpty(days: Option<seq<int32>>): seq<int32> {
    if days.None? then [] else days.value
  }

  lemma ToDayListIdentifiesDays(a: Option<seq<int32>>, b: Option<seq<int32>>)
    ensures ToDayList(a) == ToDayList(b) <==> DaysOrEmpty(a) == DaysOrEmpty(b)
  {
    ToDayListEmptyOnlyForNoDays(a);
    ToDayListEmptyOnlyForNoDays(b);
    if DaysOrEmpty(a) != [] && DaysOrEmpty(b) != [] && ToDayList(a) == ToDayList(b) {
      DayStringsInjective(a.value, b.value);
    }
  }

  lemma ToDayListEmptyOnlyForNoDays(days: Option<seq<int32>>)
    ensures ToDayList(days) == "" <==> DaysOrEmpty(days) == []
  {
    if DaysOrEmpty(days) != [] {
      JoinEndsWithLast(DayStrings(days.value), '.');
    }
  }

  lemma DayStringsInjective(a: seq<int32>, b: seq<int32>)
    requires 0 < |a| && 0 < |b|
    requires Join(DayStrings(a), '.') == Join(DayStrings(b), '.')
    ensures a == b
  {
    var pa := DayStrings(a);
    var pb := DayStrings(b);
    RawSplitJoin(pa, '.');
    RawSplitJoin(pb, '.');
    assert pa == pb;
    forall k | 0 <= k < |a|
      ensures a[k] == b[k]
    {
      IntToStringInjective(a[k] as int, b[k] as int);
    }
  }

  /** `XmlV1.tryParseDays`: a legacy sleep mode, trimmed, names all nights,
      weeknights, or a comma-separated day list after "days:". */
  function TryParseDays(sleepMode: Option<string>): (r: Option<seq<int32>>)
    ensures r.Some? ==> 0 < |r.value| && forall k :: 0 <= k < |r.value| ==> r.value[k] != -1
    ensures sleepMode.None? ==> r.None?
    ensures sleepMode.Some? && Trim(sleepMode.value) == SLEEP_MODE_NIGHTS ==> r == Some(ALL_DAYS)
    ensures sleepMode.Some? && Trim(sleepMode.value) == SLEEP_MODE_WEEKNIGHTS ==> r == Some(WEEKNIGHT_DAYS)
    ensures r.Some? ==> && sleepMode.Some?
                        && (|| Trim(sleepMode.value) == SLEEP_MODE_NIGHTS
                            || Trim(sleepMode.value) == SLEEP_MODE_WEEKNIGHTS
                            || (StartsWith(Trim(sleepMode.value), SLEEP_MODE_DAYS_PREFIX)
                                && Trim(sleepMode.value) != SLEEP_MODE_DAYS_PREFIX))
    ensures sleepMode.Some? && StartsWith(Trim(sleepMode.value), SLEEP_MODE_DAYS_PREFIX)
            && Trim(sleepMode.value) != SLEEP_MODE_DAYS_PREFIX ==>
              r == TryParseDayList(Some(Trim(sleepMode.value)[|SLEEP_MODE_DAYS_PREFIX|..]), ',')
  {
    if sleepMode.None? then None else ParseTrimmedSleepMode(Trim(sleepMode.value))
  }

  /** The part of `tryParseDays` after trimming. */
  function ParseTrimmedSleepMode(mode: string): (r: Option<seq<int32>>)
    ensures r.Some? ==> 0 < |r.value| && forall k :: 0 <= k < |r.value| ==> r.value[k] != -1
    ensures mode == SLEEP_MODE_NIGHTS ==> r == Some(ALL_DAYS)
    ensures mode == SLEEP_MODE_WEEKNIGHTS ==> r == Some(WEEKNIGHT_DAYS)
    ensures r.Some? ==> || mode == SLEEP_MODE_NIGHTS || mode == SLEEP_MODE_WEEKNIGHTS
                        || (StartsWith(mode, SLEEP_MODE_DAYS_PREFIX) && mode != SLEEP_MODE_DAYS_PREFIX)
    ensures StartsWith(mode, SLEEP_MODE_DAYS_PREFIX) && mode != SLEEP_MODE_DAYS_PREFIX ==>
              r == TryParseDayList(Some(mode[|SLEEP_MODE_DAYS_PREFIX|..]), ',')
  {
    NamedModesAreNotDayLists();
    if mode == SLEEP_MODE_NIGHTS then Some(ALL_DAYS)
    else if mode == SLEEP_MODE_WEEKNIGHTS then Some(WEEKNIGHT_DAYS)
    else if !StartsWith(mode, SLEEP_MODE_DAYS_PREFIX) then None
    else if mode == SLEEP_MODE_DAYS_PREFIX then None
    else TryParseDayList(Some(mode[|SLEEP_MODE_DAYS_PREFIX|..]), ',')
  }

  /** The two named sleep modes are already trimmed. */
  lemma NamedModesAreTrimmed()
    ensures Trim(SLEEP_MODE_NIGHTS) == SLEEP_MODE_NIGHTS
    ensures Trim(SLEEP_MODE_WEEKNIGHTS) == SLEEP_MODE_WEEKNIGHTS
  {
    assert SLEEP_MODE_NIGHTS[0] == 'n' && SLEEP_MODE_WEEKNIGHTS[0] == 'w';
  }

  /** The two named sleep modes do not start with "days:". */
  lemma NamedModesAreNotDayLists()
    ensures !StartsWith(SLEEP_MODE_NIGHTS, SLEEP_MODE_DAYS_PREFIX)
    ensures !StartsWith(SLEEP_MODE_WEEKNIGHTS, SLEEP_MODE_DAYS_PREFIX)
  {
    assert SLEEP_MODE_NIGHTS[0] == 'n' && SLEEP_MODE_WEEKNIGHTS[0] == 'w' && SLEEP_MODE_DAYS_PREFIX[0] == 'd';
  }

  /** A legacy "days:" mode written from a non-empty list of days parses back. */
  lemma LegacyDaysRoundTrip(days: seq<int32>)
    requires 0 < |days|
    requires forall k :: 0 <= k < |days| ==> days[k] != -1
    ensures TryParseDays(Some(SLEEP_MODE_DAYS_PREFIX + Join(DayStrings(days), ','))) == Some(days)
  {
    var list := Join(DayStrings(days), ',');
    var mode := SLEEP_MODE_DAYS_PREFIX + list;
    assert 0 < |list| && IsDigit(list[|list| - 1]) by {
      JoinEndsWithLast(DayStrings(days), ',');
    }
    assert Trim(mode) == mode;
    assert mode[..|SLEEP_MODE_DAYS_PREFIX|] == SLEEP_MODE_DAYS_PREFIX;
    assert mode[|SLEEP_MODE_DAYS_PREFIX|..] == list;
    assert mode != SLEEP_MODE_NIGHTS && mode != SLEEP_MODE_WEEKNIGHTS by {
      assert mode[0] == 'd';
    }
    DayListRoundTrip(days, ',');
  }

  /** A join ends with its last piece. */
  lemma {:induction false} JoinEndsWithLast(parts: seq<string>, sep: char)
    requires 0 < |parts|
    ensures |parts[|parts| - 1]| <= |Join(parts, sep)|
    ensures Join(parts, sep)[|Join(parts, sep)| - |parts[|parts| - 1]|..] == parts[|parts| - 1]
  {
    if 1 < |parts| {
      JoinEndsWithLast(parts[1..], sep);
    }
  }

  /** `XmlV1.isValidSleepMode`: null, or any mode `tryParseDays` accepts (which
      covers the two named modes). */
  function IsValidSleepMode(sleepMode: Option<string>): (b: bool)
    ensures b <==> sleepMode.None? || TryParseDays(sleepMode).Some?
  {
    NamedModesAreTrimmed();
    sleepMode.None? || sleepMode.value == SLEEP_MODE_NIGHTS
      || sleepMode.value == SLEEP_MODE_WEEKNIGHTS || TryParseDays(sleepMode).Some?
  }
}

=== FILE: decimal.dfy ===
/**
 Decimal rendering and parsing of Java integers: `Integer.toString` /
 `Long.toString` (and string concatenation of an int), and `Integer.parseInt` /
 `Long.parseLong`, which accept an optional sign followed by at least one digit
 and reject a value outside the type's range.
 */
module Decimal {
  import opened JavaLang

  predicate IsDigit(c: char) {
    '0' <= c <= '9'
  }

  predicate AllDigits(s: string) {
    forall k :: 0 <= k < |s| ==> IsDigit(s[k])
  }

  function DigitValue(c: char): (d: nat)
    requires IsDigit(c)
    ensures d < 10
  {
    (c as int) - ('0' as int)
  }

  function DigitChar(d: nat): (c: char)
    requires d < 10
    ensures IsDigit(c) && DigitValue(c) == d
  {
    ('0' as int + d) as char
  }

  /** The shortest decimal numeral of `n`: no leading zero except for 0 itself. */
  function NatToDigits(n: nat): (s: string)
    ensures 0 < |s| && AllDigits(s)
    ensures |s| > 1 ==> s[0] != '0'
    decreases n
  {
    if n < 10 then [DigitChar(n)] else NatToDigits(n / 10) + [DigitChar(n % 10)]
  }

  /** The value of a digit string, most significant digit first. */
  function DigitsValue(s: string): nat
    requires AllDigits(s)
  {
    if |s| == 0 then 0 else DigitsValue(s[..|s| - 1]) * 10 + DigitValue(s[|s| - 1])
  }

  /** `Integer.toString(i)` / `Long.toString(i)`: a minus sign for a negative
      value, then the digits of the magnitude. */
  function IntToString(i: int): (s: string)
    ensures 0 < |s|
    ensures forall k :: 0 <= k < |s| ==> IsDigit(s[k]) || (k == 0 && s[k] == '-')
    ensures s[0] == '-' <==> i < 0
    ensures IsDigit(s[|s| - 1])
  {
    if i < 0 then "-" + NatToDigits(-i) else NatToDigits(i)
  }

  /** `Integer.parseInt` / `Long.parseLong` with the type's range `lo..hi`:
      None where Java throws NumberFormatException. */
  function ParseDecimal(s: string, lo: int, hi: int): (r: Option<int>)
    ensures r.Some? ==> lo <= r.value <= hi
    ensures r.Some? ==> 0 < |s| && (AllDigits(s) || (AllDigits(s[1..]) && 1 < |s| && s[0] in "+-"))
  {
    if |s| == 0 then None
    else
      var signed := s[0] == '-' || s[0] == '+';
      var digits := if signed then s[1..] else s;
      if |digits| == 0 || !AllDigits(digits) then None
      else
        var magnitude: int := DigitsValue(digits);
        var v := if s[0] == '-' then -magnitude else magnitude;
        if lo <= v <= hi then Some(v) else None
  }

  /** `Integer.parseInt(s)`. */
  function ParseInt(s: string): (r: Option<int32>)
    ensures r.Some? <==> ParseDecimal(s, INT_MIN, INT_MAX).Some?
    ensures r.Some? ==> r.value as int == ParseDecimal(s, INT_MIN, INT_MAX).value
  {
    match ParseDecimal(s, INT_MIN, INT_MAX)
    case Some(v) => Some(v as int32)
    case None => None
  }

  /** `Long.parseLong(s)`. */
  function ParseLong(s: string): (r: Option<int64>)
    ensures r.Some? <==> ParseDecimal(s, LONG_MIN, LONG_MAX).Some?
    ensures r.Some? ==> r.value as int == ParseDecimal(s, LONG_MIN, LONG_MAX).value
  {
    match ParseDecimal(s, LONG_MIN, LONG_MAX)
    case Some(v) => Some(v as int64)
    case None => None
  }

  lemma {:induction false} DigitsRoundTrip(n: nat)
    ensures DigitsValue(NatToDigits(n)) == n
    decreases n
  {
    if n >= 10 {
      var s := NatToDigits(n);
      assert s[..|s| - 1] == NatToDigits(n / 10);
      DigitsRoundTrip(n / 10);
    }
  }

  /** Parsing what `IntToString` renders gives the value back, whenever the
      value lies in the range the parser accepts. */
  lemma ParseIntToString(i: int, lo: int, hi: int)
    requires lo <= i <= hi
    ensures ParseDecimal(IntToString(i), lo, hi) == Some(i)
  {
    var s := IntToString(i);
    if i < 0 {
      assert s[1..] == NatToDigits(-i);
      DigitsRoundTrip(-i);
    } else {
      DigitsRoundTrip(i);
    }
  }

  lemma IntToStringRoundTrip(i: int32)
    ensures ParseInt(IntToString(i as int)) == Some(i)
  {
    ParseIntToString(i as int, INT_MIN, INT_MAX);
  }

  lemma LongToStringRoundTrip(t: int64)
    ensures ParseLong(IntToString(t as int)) == Some(t)
  {
    ParseIntToString(t as int, LONG_MIN, LONG_MAX);
  }

  /** Distinct integers render as distinct strings. */
  lemma IntToStringInjective(a: int, b: int)
    requires IntToString(a) == IntToString(b)
    ensures a == b
  {
    var lo := if a < b then a else b;
    var hi := if a < b then b else a;
    ParseIntToString(a, lo, hi);
    ParseIntToString(b, lo, hi);
  }
}

=== FILE: framework.dfy ===
/**
 The Android framework types the zen-mode configuration is built from, as far
 as the configuration code depends on them: a hierarchical `android.net.Uri`
 kept as its decoded parts, `ComponentName`, `android.service.notification.Condition`,
 and the platform services whose logic lives outside the configuration class.
 */
module Framework {
  import opened JavaLang
  import opened NameValue

  /** `Condition.SCHEME`, the scheme of every condition id. */
  const CONDITION_SCHEME: string := "condition"

  /** `Condition.STATE_*`. */
  const STATE_FALSE: int32 := 0
  const STATE_TRUE: int32 := 1
  const STATE_UNKNOWN: int32 := 2
  const STATE_ERROR: int32 := 3

  /** A hierarchical Uri: a null scheme or authority is None, path segments
      and query parameters are held decoded and in order. */
  datatype Uri = Uri(
    scheme: Option<string>,
    authority: Option<string>,
    pathSegments: seq<string>,
    query: seq<Pair>)

  /** `Uri.getQueryParameter`: the first value under `name`, or null. */
  function QueryParameter(u: Uri, name: string): Option<string> {
    First(u.query, name)
  }

  datatype ComponentName = ComponentName(packageName: string, className: string)

  /** A condition with its id and display fields; the strings may be null. */
  datatype Condition = Condition(
    id: Uri,
    summary: Option<string>,
    line1: Option<string>,
    line2: Option<string>,
    icon: int32,
    state: int32,
    flags: int32)

  /** Platform services the configuration code calls but does not define:
      - `isValidZenMode`: `Settings.Global.isValidZenMode`;
      - `isValidId`: `Condition.isValidId(id, authority)`;
      - `acceptsCondition`: the argument checks of the `Condition` constructor,
        which throws IllegalArgumentException when they fail;
      - `uriToString` / `parseUri`: `Uri.toString` / `Uri.parse`;
      - `flattenComponent` / `unflattenComponent`: `ComponentName.flattenToString` /
        `ComponentName.unflattenFromString`, the latter null on a malformed string. */
  datatype Platform = Platform(
    isValidZenMode: int32 -> bool,
    isValidId: (Uri, string) -> bool,
    acceptsCondition: Condition -> bool,
    uriToString: Uri -> string,
    parseUri: string -> Uri,
    flattenComponent: ComponentName -> string,
    unflattenComponent: string -> Option<ComponentName>)
}

=== FILE: java_lang.dfy ===
/**
 Java-level vocabulary shared by the zen-mode configuration model: nullable
 references, the exceptions the configuration code can raise, Java's fixed-width
 integers, and the few java.lang.String operations the configuration code uses.
 */
module JavaLang {

  /** A Java reference that may be null: `None` is null. */
  datatype Option<+T> = None | Some(value: T)

  /** The unchecked exceptions the configuration code lets escape. */
  datatype JavaException =
    | NullPointerException
    | IndexOutOfBoundsException
    | IllegalStateException

  /** A Java computation that either returns a value or throws. */
  datatype Result<+T> = Ok(value: T) | Thrown(exception: JavaException)

  const INT_MIN: int := -0x8000_0000
  const INT_MAX: int := 0x7fff_ffff
  const LONG_MIN: int := -0x8000_0000_0000_0000
  const LONG_MAX: int := 0x7fff_ffff_ffff_ffff

  /** Java `int`. */
  newtype int32 = x: int | -0x8000_0000 <= x < 0x8000_0000

  /** Java `long`. */
  newtype int64 = x: int | -0x8000_0000_0000_0000 <= x < 0x8000_0000_0000_0000

  /** `TextUtils.isEmpty`: null or of length zero. */
  predicate IsEmpty(s: Option<string>) {
    s.None? || |s.value| == 0
  }

  /** `String.indexOf(char)`: the first position of `c`, or -1. */
  function IndexOf(s: string, c: char): (pos: int)
    ensures pos == -1 <==> c !in s
    ensures pos != -1 ==> 0 <= pos < |s| && s[pos] == c && c !in s[..pos]
  {
    if |s| == 0 then -1
    else if s[0] == c then 0
    else
      var j := IndexOf(s[1..], c);
      if j == -1 then -1
      else
        assert s[..j + 1] == [s[0]] + s[1..][..j];
        j + 1
  }

  /** `String.startsWith`. */
  predicate StartsWith(s: string, prefix: string) {
    |prefix| <= |s| && s[..|prefix|] == prefix
  }

  /** Characters `String.trim` strips: every code point up to and including space. */
  predicate IsTrimmable(c: char) {
    c <= ' '
  }

  function TrimStart(s: string): (t: string)
    ensures |t| <= |s| && t == s[|s| - |t|..]
    ensures |t| > 0 ==> !IsTrimmable(t[0])
    ensures forall k :: 0 <= k < |s| - |t| ==> IsTrimmable(s[k])
  {
    if |s| > 0 && IsTrimmable(s[0]) then TrimStart(s[1..]) else s
  }

  function TrimEnd(s: string): (t: string)
    ensures |t| <= |s| && t == s[..|t|]
    ensures |t| > 0 ==> !IsTrimmable(t[|t| - 1])
    ensures forall k :: |t| <= k < |s| ==> IsTrimmable(s[k])
  {
    if |s| > 0 && IsTrimmable(s[|s| - 1]) then TrimEnd(s[..|s| - 1]) else s
  }

  /** `String.trim`: the longest infix that neither starts nor ends with a
      control character or space. */
  function Trim(s: string): (t: string)
    ensures |t| > 0 ==> !IsTrimmable(t[0]) && !IsTrimmable(t[|t| - 1])
    ensures |t| <= |s|
    ensures |s| == 0 || (!IsTrimmable(s[0]) && !IsTrimmable(s[|s| - 1])) ==> t == s
  {
    TrimEnd(TrimStart(s))
  }
}

=== FILE: name_value.dfy ===
/**
 Ordered name/value pairs looked up by first match: the query of a Uri
 (`Uri.getQueryParameter`) and the attributes of an XML start tag
 (`XmlPullParser.getAttributeValue`) both behave this way.
 */
module NameValue {
  import opened JavaLang

  datatype Pair = Pair(name: string, value: string)

  /** The value of the first pair called `name`, or null when there is none. */
  function First(pairs: seq<Pair>, name: string): Option<string> {
    if |pairs| == 0 then None
    else if pairs[0].name == name then Some(pairs[0].value)
    else First(pairs[1..], name)
  }

  /** The lookup finds nothing exactly when no pair has the name, and otherwise
      the value of the earliest pair that has it. */
  lemma {:induction false} FirstIsEarliestMatch(pairs: seq<Pair>, name: string)
    ensures First(pairs, name).None? <==> forall k :: 0 <= k < |pairs| ==> pairs[k].name != name
    ensures First(pairs, name).Some? ==>
              exists k :: 0 <= k < |pairs| && pairs[k] == Pair(name, First(pairs, name).value)
                          && forall j :: 0 <= j < k ==> pairs[j].name != name
    decreases |pairs|
  {
    if |pairs| > 0 && pairs[0].name != name {
      FirstIsEarliestMatch(pairs[1..], name);
      if First(pairs, name).Some? {
        var k :| 0 <= k < |pairs[1..]| && pairs[1..][k] == Pair(name, First(pairs, name).value)
                 && forall j :: 0 <= j < k ==> pairs[1..][j].name != name;
        assert pairs[k + 1] == Pair(name, First(pairs, name).value);
      }
      if forall k :: 0 <= k < |pairs[1..]| ==> pairs[1..][k].name != name {
        forall k | 0 <= k < |pairs| ensures pairs[k].name != name {
          if k > 0 { assert pairs[k] == pairs[1..][k - 1]; }
        }
      }
    }
  }

  /** A lookup in a concatenation consults the second part only when the first
      has no pair of that name. */
  lemma {:induction false} FirstOfAppend(a: seq<Pair>, b: seq<Pair>, name: string)
    ensures First(a + b, name) == if First(a, name).Some? then First(a, name) else First(b, name)
    decreases |a|
  {
    if |a| > 0 {
      assert (a + b)[1..] == a[1..] + b;
      FirstOfAppend(a[1..], b, name);
    } else {
      assert a + b == b;
    }
  }
}

=== FILE: notification_policy.dfy ===
/**
 Translation between the configuration's allow flags and the coarser
 `NotificationManager.Policy`: one category bit per allow flag and a sender
 filter for `allowFrom`.
 */
module NotificationPolicy {
  import opened JavaLang
  import opened ZenConfig

  /** `Policy.PRIORITY_CATEGORY_*`, one bit each. */
  const PRIORITY_CATEGORY_REMINDERS: bv32 := 1
  const PRIORITY_CATEGORY_EVENTS: bv32 := 2
  const PRIORITY_CATEGORY_MESSAGES: bv32 := 4
  const PRIORITY_CATEGORY_CALLS: bv32 := 8
  const PRIORITY_CATEGORY_REPEAT_CALLERS: bv32 := 16

  /** The bits above together. */
  const ALL_PRIORITY_CATEGORIES: bv32 := 31

  /** `Policy.PRIORITY_SENDERS_*`. */
  const PRIORITY_SENDERS_ANY: int32 := 0
  const PRIORITY_SENDERS_CONTACTS: int32 := 1
  const PRIORITY_SENDERS_STARRED: int32 := 2

  /** `NotificationManager.Policy`; the categories are the Java int's bit pattern. */
  datatype Policy = Policy(priorityCategories: bv32, prioritySenders: int32)

  predicate HasCategory(policy: Policy, category: bv32) {
    policy.priorityCategories & category != 0
  }

  function CategoryIf(allowed: bool, category: bv32): bv32 {
    if allowed then category else 0
  }

  /** `toNotificationPolicy`: a category bit for each allowed kind, and the
      sender filter matching `allowFrom` (any sender for an unknown source). */
  function ToNotificationPolicy(config: Config): (policy: Policy)
    ensures HasCategory(policy, PRIORITY_CATEGORY_CALLS) <==> config.allowCalls
    ensures HasCategory(policy, PRIORITY_CATEGORY_MESSAGES) <==> config.allowMessages
    ensures HasCategory(policy, PRIORITY_CATEGORY_EVENTS) <==> config.allowEvents
    ensures HasCategory(policy, PRIORITY_CATEGORY_REMINDERS) <==> config.allowReminders
    ensures HasCategory(policy, PRIORITY_CATEGORY_REPEAT_CALLERS) <==> config.allowRepeatCallers
    ensures policy.priorityCategories & !ALL_PRIORITY_CATEGORIES == 0
    ensures policy.prioritySenders == PRIORITY_SENDERS_CONTACTS <==> config.allowFrom == SOURCE_CONTACT
    ensures policy.prioritySenders == PRIORITY_SENDERS_STARRED <==> config.allowFrom == SOURCE_STAR
    ensures policy.prioritySenders == PRIORITY_SENDERS_ANY <==>
              config.allowFrom != SOURCE_CONTACT && config.allowFrom != SOURCE_STAR
  {
    var categories :=
      CategoryIf(config.allowCalls, PRIORITY_CATEGORY_CALLS)
      | CategoryIf(config.allowMessages, PRIORITY_CATEGORY_MESSAGES)
      | CategoryIf(config.allowEvents, PRIORITY_CATEGORY_EVENTS)
      | CategoryIf(config.allowReminders, PRIORITY_CATEGORY_REMINDERS)
      | CategoryIf(config.allowRepeatCallers, PRIORITY_CATEGORY_REPEAT_CALLERS);
    var senders :=
      if config.allowFrom == SOURCE_ANYONE then PRIORITY_SENDERS_ANY
      else if config.allowFrom == SOURCE_CONTACT then PRIORITY_SENDERS_CONTACTS
      else if config.allowFrom == SOURCE_STAR then PRIORITY_SENDERS_STARRED
      else PRIORITY_SENDERS_ANY;
    Policy(categories, senders)
  }

  /** `applyNotificationPolicy`: a null policy changes nothing; otherwise the
      five allow flags follow the category bits and `allowFrom` follows the
      sender filter, an unrecognised filter meaning anyone. Rules are untouched. */
  function ApplyNotificationPolicy(config: Config, policy: Option<Policy>): (r: Config)
    ensures policy.None? ==> r == config
    ensures policy.Some? ==>
              && r.allowCalls == HasCategory(policy.value, PRIORITY_CATEGORY_CALLS)
              && r.allowMessages == HasCategory(policy.value, PRIORITY_CATEGORY_MESSAGES)
              && r.allowEvents == HasCategory(policy.value, PRIORITY_CATEGORY_EVENTS)
              && r.allowReminders == HasCategory(policy.value, PRIORITY_CATEGORY_REMINDERS)
              && r.allowRepeatCallers == HasCategory(policy.value, PRIORITY_CATEGORY_REPEAT_CALLERS)
    ensures policy.Some? ==> SOURCE_ANYONE <= r.allowFrom <= MAX_SOURCE
    ensures (policy.Some? && policy.value.prioritySenders != PRIORITY_SENDERS_CONTACTS
             && policy.value.prioritySenders != PRIORITY_SENDERS_STARRED) ==> r.allowFrom == SOURCE_ANYONE
    ensures r.manualRule == config.manualRule && r.automaticRules == config.automaticRules
  {
    if policy.None? then config
    else
      var p := policy.value;
      config.(
        allowCalls := HasCategory(p, PRIORITY_CATEGORY_CALLS),
        allowMessages := HasCategory(p, PRIORITY_CATEGORY_MESSAGES),
        allowEvents := HasCategory(p, PRIORITY_CATEGORY_EVENTS),
        allowReminders := HasCategory(p, PRIORITY_CATEGORY_REMINDERS),
        allowRepeatCallers := HasCategory(p, PRIORITY_CATEGORY_REPEAT_CALLERS),
        allowFrom :=
          if p.prioritySenders == PRIORITY_SENDERS_CONTACTS then SOURCE_CONTACT
          else if p.prioritySenders == PRIORITY_SENDERS_STARRED then SOURCE_STAR
          else SOURCE_ANYONE)
  }

  /** Applying the policy of a configuration whose source is known gives the
      configuration back unchanged. */
  lemma ConfigPolicyRoundTrip(config: Config)
    requires SOURCE_ANYONE <= config.allowFrom <= MAX_SOURCE
    ensures ApplyNotificationPolicy(config, Some(ToNotificationPolicy(config))) == config
  {
  }

  /** Conversely, a policy using only the five categories and a known sender
      filter survives being applied and read back. */
  lemma PolicyConfigRoundTrip(config: Config, policy: Policy)
    requires policy.priorityCategories & !ALL_PRIORITY_CATEGORIES == 0
    requires PRIORITY_SENDERS_ANY <= policy.prioritySenders <= PRIORITY_SENDERS_STARRED
    ensures ToNotificationPolicy(ApplyNotificationPolicy(config, Some(policy))) == policy
  {
  }

  /** Applying a policy keeps a valid configuration valid. */
  lemma ApplyPreservesValidity(p: Framework.Platform, config: Config, policy: Option<Policy>)
    requires ConfigValid(p, config)
    ensures ConfigValid(p, ApplyNotificationPolicy(config, policy))
  {
  }
}

=== FILE: tokens.dfy ===
/**
 `String.split` on a single separator character (the fast path Java takes for
 the patterns "\\." and ","), and its inverse, joining with that character.
 */
module Tokens {
  import opened JavaLang

  /** The pieces between occurrences of `sep`, empty pieces included. */
  function RawSplit(s: string, sep: char): (parts: seq<string>)
    ensures 0 < |parts|
    ensures forall k :: 0 <= k < |parts| ==> sep !in parts[k]
    decreases |s|
  {
    var i := IndexOf(s, sep);
    if i == -1 then [s] else [s[..i]] + RawSplit(s[i + 1..], sep)
  }

  /** Drops empty pieces from the end, as `split` with limit zero does. */
  function StripTrailingEmpty(parts: seq<string>): (kept: seq<string>)
    ensures |kept| <= |parts| && kept == parts[..|kept|]
    ensures |kept| > 0 ==> kept[|kept| - 1] != ""
    ensures forall k :: |kept| <= k < |parts| ==> parts[k] == ""
  {
    if |parts| > 0 && parts[|parts| - 1] == "" then StripTrailingEmpty(parts[..|parts| - 1]) else parts
  }

  /** `s.split(sep)`: a string without the separator splits into itself (so ""
      gives [""]); otherwise into its pieces with trailing empty ones removed. */
  function Split(s: string, sep: char): (parts: seq<string>)
    ensures forall k :: 0 <= k < |parts| ==> sep !in parts[k]
    ensures sep !in s ==> parts == [s]
    ensures sep in s ==> |parts| == 0 || parts[|parts| - 1] != ""
  {
    if sep !in s then [s] else StripTrailingEmpty(RawSplit(s, sep))
  }

  /** Concatenation of `parts` with `sep` between neighbours. */
  function Join(parts: seq<string>, sep: char): string
    requires 0 < |parts|
  {
    if |parts| == 1 then parts[0] else parts[0] + [sep] + Join(parts[1..], sep)
  }

  /** One step of `RawSplit`: the piece before the first separator, then the
      pieces of the rest. */
  lemma RawSplitStep(s: string, sep: char)
    requires sep in s
    ensures var i := IndexOf(s, sep);
            RawSplit(s, sep) == [s[..i]] + RawSplit(s[i + 1..], sep)
  {
  }

  /** One step of `Join`: the first piece, a separator, then the rest joined. */
  lemma JoinStep(head: string, rest: seq<string>, sep: char)
    requires 0 < |rest|
    ensures Join([head] + rest, sep) == head + [sep] + Join(rest, sep)
  {
    assert ([head] + rest)[1..] == rest;
  }

  /** Joining the raw pieces of a string gives the string back. */
  lemma {:induction false} JoinRawSplit(s: string, sep: char)
    ensures Join(RawSplit(s, sep), sep) == s
    decreases |s|
  {
    var i := IndexOf(s, sep);
    if i != -1 {
      RawSplitStep(s, sep);
      JoinStep(s[..i], RawSplit(s[i + 1..], sep), sep);
      JoinRawSplit(s[i + 1..], sep);
      assert s == s[..i] + [sep] + s[i + 1..];
    }
  }

  /** In a join of several pieces the first separator ends the first piece. */
  lemma JoinHead(parts: seq<string>, sep: char)
    requires 1 < |parts| && sep !in parts[0]
    ensures IndexOf(Join(parts, sep), sep) == |parts[0]|
    ensures Join(parts, sep)[|parts[0]| + 1..] == Join(parts[1..], sep)
  {
    var s := Join(parts, sep);
    var n := |parts[0]|;
    assert s == parts[0] + [sep] + Join(parts[1..], sep);
    assert s[n] == sep;
    assert s[..n] == parts[0];
  }

  /** Splitting a join of separator-free pieces gives the pieces back. */
  lemma {:induction false} RawSplitJoin(parts: seq<string>, sep: char)
    requires 0 < |parts|
    requires forall k :: 0 <= k < |parts| ==> sep !in parts[k]
    ensures RawSplit(Join(parts, sep), sep) == parts
    decreases |parts|
  {
    if |parts| > 1 {
      JoinHead(parts, sep);
      RawSplitJoin(parts[1..], sep);
      assert Join(parts, sep)[..|parts[0]|] == parts[0];
      assert parts == [parts[0]] + parts[1..];
    } else {
      assert IndexOf(Join(parts, sep), sep) == -1;
    }
  }

  /** The separator occurs in a join exactly when there are several pieces. */
  lemma {:induction false} SeparatorInJoin(parts: seq<string>, sep: char)
    requires 0 < |parts|
    requires forall k :: 0 <= k < |parts| ==> sep !in parts[k]
    ensures sep in Join(parts, sep) <==> 1 < |parts|
  {
    if 1 < |parts| {
      assert Join(parts, sep)[|parts[0]|] == sep;
    }
  }

  /** `Split` undoes `Join` for separator-free pieces whose last one is not empty. */
  lemma SplitJoin(parts: seq<string>, sep: char)
    requires 0 < |parts|
    requires forall k :: 0 <= k < |parts| ==> sep !in parts[k]
    requires parts[|parts| - 1] != ""
    ensures Split(Join(parts, sep), sep) == parts
  {
    SeparatorInJoin(parts, sep);
    if 1 < |parts| {
      RawSplitJoin(parts, sep);
    }
  }
}

=== FILE: xml_round_trip.dfy ===
/**
 What survives writing the zen-mode configuration to XML and reading it back.
 The platform's Uri and component-name codecs are abstract, so every round trip
 assumes they round-trip the values involved and render them as non-empty text.
 */
module XmlRoundTrip {
  import opened JavaLang
  import opened NameValue
  import opened Decimal
  import opened Framework
  import opened ZenConfig
  import opened DayLists
  import opened ZenXml

  /** The platform writes this Uri as non-empty text and parses that text back. */
  predicate UriRoundTrips(p: Platform, id: Uri) {
    p.uriToString(id) != "" && p.parseUri(p.uriToString(id)) == id
  }

  /** The platform flattens this component to non-empty text and unflattens it back. */
  predicate ComponentRoundTrips(p: Platform, component: ComponentName) {
    p.flattenComponent(component) != "" && p.unflattenComponent(p.flattenComponent(component)) == Some(component)
  }

  /** A condition the writer can write and the reader accepts back. */
  predicate ConditionRoundTrips(p: Platform, c: Condition) {
    HasAllStrings(c) && UriRoundTrips(p, c.id) && p.acceptsCondition(c)
  }

  /** A rule whose every part survives the codecs, with a zen mode the reader keeps. */
  predicate RuleRoundTrips(p: Platform, rule: Rule) {
    && p.isValidZenMode(rule.zenMode) && rule.zenMode != -1
    && (rule.component.Some? ==> ComponentRoundTrips(p, rule.component.value))
    && (rule.conditionId.Some? ==> UriRoundTrips(p, rule.conditionId.value))
    && (rule.condition.Some? ==> ConditionRoundTrips(p, rule.condition.value))
  }

  /** A written condition reads back as itself. */
  lemma ConditionRoundTrip(p: Platform, c: Condition)
    requires ConditionRoundTrips(p, c)
    ensures ReadConditionXml(p, WriteConditionXml(p, c).value) == Some(c)
  {
    ConditionAttributeListLookup(p.uriToString(c.id), c.summary.value, c.line1.value, c.line2.value,
                                 IntToString(c.icon as int), IntToString(c.state as int), IntToString(c.flags as int));
    TryParseIntOfToString(c.icon, -1);
    TryParseIntOfToString(c.state, -1);
    TryParseIntOfToString(c.flags, -1);
  }

  /** A lookup of a name the first part lacks goes to the second part. */
  lemma FirstAfter(head: seq<Pair>, tail: seq<Pair>, name: string)
    requires forall k :: 0 <= k < |head| ==> head[k].name != name
    ensures First(head + tail, name) == First(tail, name)
  {
    FirstIsEarliestMatch(head, name);
    FirstOfAppend(head, tail, name);
  }

  /** The condition attributes a rule writes after its own: none when it has
      no condition. */
  function ConditionPart(p: Platform, rule: Rule): seq<Pair>
    requires Writable(rule)
  {
    if rule.condition.None? then [] else WriteConditionXml(p, rule.condition.value).value
  }

  /** The written attributes split into the rule's own and the condition's, and
      each lookup is answered by the part that owns the name. */
  lemma WrittenRuleParts(p: Platform, rule: Rule)
    requires Writable(rule)
    ensures WriteRuleXml(p, rule).value == RuleAttributes(p, rule) + ConditionPart(p, rule)
    ensures forall k :: 0 <= k < |ConditionPart(p, rule)| ==> ConditionPart(p, rule)[k].name in CONDITION_ATTRIBUTES
    ensures forall k :: 0 <= k < |RuleAttributes(p, rule)| ==> RuleAttributes(p, rule)[k].name in RULE_ATTRIBUTES
  {
    RuleAttributeListNames(BoolToString(rule.enabled), BoolToString(rule.snoozing), rule.name,
                           IntToString(rule.zenMode as int), ComponentText(p, rule.component),
                           UriText(p, rule.conditionId));
    if rule.condition.Some? {
      var c := rule.condition.value;
      ConditionAttributeListNames(p.uriToString(c.id), c.summary.value, c.line1.value, c.line2.value,
                                  IntToString(c.icon as int), IntToString(c.state as int), IntToString(c.flags as int));
    }
  }

  /** Reading the condition from a rule's attributes sees only the condition part. */
  lemma ReadConditionOfRule(p: Platform, rule: Rule)
    requires Writable(rule)
    ensures ReadConditionXml(p, WriteRuleXml(p, rule).value) == ReadConditionXml(p, ConditionPart(p, rule))
  {
    WrittenRuleParts(p, rule);
    var head := RuleAttributes(p, rule);
    var tail := ConditionPart(p, rule);
    RuleAttributeListNames(BoolToString(rule.enabled), BoolToString(rule.snoozing), rule.name,
                           IntToString(rule.zenMode as int), ComponentText(p, rule.component),
                           UriText(p, rule.conditionId));
    FirstAfter(head, tail, CONDITION_ATT_ID);
    FirstAfter(head, tail, CONDITION_ATT_SUMMARY);
    FirstAfter(head, tail, CONDITION_ATT_LINE1);
    FirstAfter(head, tail, CONDITION_ATT_LINE2);
    FirstAfter(head, tail, CONDITION_ATT_ICON);
    FirstAfter(head, tail, CONDITION_ATT_STATE);
    FirstAfter(head, tail, CONDITION_ATT_FLAGS);
  }

  /** Reading a rule's own fields from its attributes sees only the rule part. */
  lemma ReadOwnFieldsOfRule(p: Platform, rule: Rule, att: string)
    requires Writable(rule)
    requires att in RULE_ATTRIBUTES
    ensures First(WriteRuleXml(p, rule).value, att) == First(RuleAttributes(p, rule), att)
  {
    WrittenRuleParts(p, rule);
    var head := RuleAttributes(p, rule);
    var tail := ConditionPart(p, rule);
    assert att !in CONDITION_ATTRIBUTES;
    assert forall k :: 0 <= k < |tail| ==> tail[k].name != att;
    FirstIsEarliestMatch(tail, att);
    FirstOfAppend(head, tail, att);
  }

  /** A rule written and read back as the manual rule is the same rule; so is
      a rule with a condition read where a condition is required. */
  lemma RuleRoundTrip(p: Platform, rule: Rule)
    requires RuleRoundTrips(p, rule)
    ensures ReadRuleXml(p, WriteRuleXml(p, rule).value, false) == Some(rule)
    ensures rule.condition.Some? ==> ReadRuleXml(p, WriteRuleXml(p, rule).value, true) == Some(rule)
  {
    var attrs := WriteRuleXml(p, rule).value;
    RuleAttributeListLookup(BoolToString(rule.enabled), BoolToString(rule.snoozing), rule.name,
                            IntToString(rule.zenMode as int), ComponentText(p, rule.component),
                            UriText(p, rule.conditionId));
    ReadOwnFieldsOfRule(p, rule, RULE_ATT_ENABLED);
    ReadOwnFieldsOfRule(p, rule, RULE_ATT_SNOOZING);
    ReadOwnFieldsOfRule(p, rule, RULE_ATT_NAME);
    ReadOwnFieldsOfRule(p, rule, RULE_ATT_ZEN);
    ReadOwnFieldsOfRule(p, rule, RULE_ATT_COMPONENT);
    ReadOwnFieldsOfRule(p, rule, RULE_ATT_CONDITION_ID);
    ParseBooleanOfToString(rule.enabled);
    ParseBooleanOfToString(rule.snoozing);
    assert SafeBoolean(attrs, RULE_ATT_ENABLED, true) == rule.enabled;
    assert SafeBoolean(attrs, RULE_ATT_SNOOZING, false) == rule.snoozing;
    assert First(attrs, RULE_ATT_NAME) == rule.name;
    TryParseIntOfToString(rule.zenMode, -1);
    assert TryParseZenMode(p, First(attrs, RULE_ATT_ZEN), -1) == rule.zenMode;
    assert SafeUri(p, attrs, RULE_ATT_CONDITION_ID) == rule.conditionId;
    assert SafeComponentName(p, attrs, RULE_ATT_COMPONENT) == rule.component;
    ReadConditionOfRule(p, rule);
    if rule.condition.Some? {
      ConditionRoundTrip(p, rule.condition.value);
    }
    assert ReadConditionXml(p, attrs) == rule.condition;
  }

  /** The attributes of an `automatic` tag: the rule id, then the rule's. */
  function AutomaticAttributes(p: Platform, id: string, rule: Rule): seq<Pair>
    requires Writable(rule)
  {
    [Pair(RULE_ATT_ID, id)] + WriteRuleXml(p, rule).value
  }

  /** Behind the leading rule id every lookup but that of "id" is unchanged. */
  lemma AutomaticLookups(p: Platform, id: string, rule: Rule)
    requires Writable(rule)
    ensures First(AutomaticAttributes(p, id, rule), CONDITION_ATT_ID) == Some(id)
    ensures ReadConditionXml(p, AutomaticAttributes(p, id, rule))
              == ReadConditionXml(p, [Pair(CONDITION_ATT_ID, id)] + ConditionPart(p, rule))
    ensures forall att :: att in RULE_ATTRIBUTES ==>
              First(AutomaticAttributes(p, id, rule), att) == First(WriteRuleXml(p, rule).value, att)
  {
    var attrs := AutomaticAttributes(p, id, rule);
    var tail := ConditionPart(p, rule);
    WrittenRuleParts(p, rule);
    RuleAttributeListNames(BoolToString(rule.enabled), BoolToString(rule.snoozing), rule.name,
                           IntToString(rule.zenMode as int), ComponentText(p, rule.component),
                           UriText(p, rule.conditionId));
    var head := RuleAttributes(p, rule);
    assert attrs == [Pair(RULE_ATT_ID, id)] + (head + tail);
    forall att | att in CONDITION_ATTRIBUTES && att != CONDITION_ATT_ID
      ensures First(attrs, att) == First([Pair(CONDITION_ATT_ID, id)] + tail, att)
    {
      FirstAfter(head, tail, att);
      assert ([Pair(CONDITION_ATT_ID, id)] + tail)[1..] == tail;
      assert attrs[1..] == head + tail;
    }
  }

  /** The rule id and the condition id share the attribute name "id", so the
      condition of an automatic rule is always read back with the rule id as
      its condition id, whatever condition was written. */
  lemma AutomaticConditionIdIsRuleId(p: Platform, id: string, rule: Rule)
    requires Writable(rule)
    ensures var r := ReadRuleXml(p, AutomaticAttributes(p, id, rule), true);
            r.Some? ==> r.value.condition.Some? && r.value.condition.value.id == p.parseUri(id)
  {
    AutomaticLookups(p, id, rule);
  }

  /** An automatic rule reads back as itself exactly when the clash is
      harmless: it has a condition and the rule id parses to that condition's id. */
  lemma AutomaticRuleRoundTrip(p: Platform, id: string, rule: Rule)
    requires RuleRoundTrips(p, rule) && rule.condition.Some?
    requires id != "" && p.parseUri(id) == rule.condition.value.id
    ensures ReadRuleXml(p, AutomaticAttributes(p, id, rule), true) == Some(rule)
  {
    var attrs := AutomaticAttributes(p, id, rule);
    var written := WriteRuleXml(p, rule).value;
    var tail := ConditionPart(p, rule);
    RuleRoundTrip(p, rule);
    AutomaticLookups(p, id, rule);
    ReadConditionOfRule(p, rule);
    var keyed := [Pair(CONDITION_ATT_ID, id)] + tail;
    assert keyed[1..] == tail;
    assert First(keyed, CONDITION_ATT_SUMMARY) == First(tail, CONDITION_ATT_SUMMARY);
    assert First(keyed, CONDITION_ATT_LINE1) == First(tail, CONDITION_ATT_LINE1);
    assert First(keyed, CONDITION_ATT_LINE2) == First(tail, CONDITION_ATT_LINE2);
    assert First(keyed, CONDITION_ATT_ICON) == First(tail, CONDITION_ATT_ICON);
    assert First(keyed, CONDITION_ATT_STATE) == First(tail, CONDITION_ATT_STATE);
    assert First(keyed, CONDITION_ATT_FLAGS) == First(tail, CONDITION_ATT_FLAGS);
    assert ReadConditionXml(p, keyed) == ReadConditionXml(p, tail);
    assert First(attrs, RULE_ATT_ENABLED) == First(written, RULE_ATT_ENABLED);
    assert First(attrs, RULE_ATT_SNOOZING) == First(written, RULE_ATT_SNOOZING);
    assert First(attrs, RULE_ATT_NAME) == First(written, RULE_ATT_NAME);
    assert First(attrs, RULE_ATT_ZEN) == First(written, RULE_ATT_ZEN);
    assert First(attrs, RULE_ATT_COMPONENT) == First(written, RULE_ATT_COMPONENT);
    assert First(attrs, RULE_ATT_CONDITION_ID) == First(written, RULE_ATT_CONDITION_ID);
  }

  /** An automatic rule written without a condition comes back with a bare
      condition built from the rule id, or is dropped when the platform
      rejects that condition: it never reads back as itself. */
  lemma AutomaticRuleWithoutCondition(p: Platform, id: string, rule: Rule)
    requires RuleRoundTrips(p, rule) && rule.condition.None? && id != ""
    ensures var bare := Condition(p.parseUri(id), None, None, None, -1, -1, -1);
            ReadRuleXml(p, AutomaticAttributes(p, id, rule), true)
              == if p.acceptsCondition(bare) then Some(rule.(condition := Some(bare))) else None
  {
    var attrs := AutomaticAttributes(p, id, rule);
    var written := WriteRuleXml(p, rule).value;
    RuleRoundTrip(p, rule);
    AutomaticLookups(p, id, rule);
    var bare := Condition(p.parseUri(id), None, None, None, -1, -1, -1);
    var keyed := [Pair(CONDITION_ATT_ID, id)];
    assert ConditionPart(p, rule) == [] && keyed + [] == keyed;
    assert First(keyed, CONDITION_ATT_ID) == Some(id);
    assert First(keyed, CONDITION_ATT_SUMMARY).None? && First(keyed, CONDITION_ATT_LINE1).None?;
    assert First(keyed, CONDITION_ATT_LINE2).None? && First(keyed, CONDITION_ATT_ICON).None?;
    assert First(keyed, CONDITION_ATT_STATE).None? && First(keyed, CONDITION_ATT_FLAGS).None?;
    assert ReadConditionXml(p, attrs) == if p.acceptsCondition(bare) then Some(bare) else None;
    assert First(attrs, RULE_ATT_ENABLED) == First(written, RULE_ATT_ENABLED);
    assert First(attrs, RULE_ATT_SNOOZING) == First(written, RULE_ATT_SNOOZING);
    assert First(attrs, RULE_ATT_NAME) == First(written, RULE_ATT_NAME);
    assert First(attrs, RULE_ATT_ZEN) == First(written, RULE_ATT_ZEN);
    assert First(attrs, RULE_ATT_COMPONENT) == First(written, RULE_ATT_COMPONENT);
    assert First(attrs, RULE_ATT_CONDITION_ID) == First(written, RULE_ATT_CONDITION_ID);
  }

  /** The loop of `readXml` over a run of events containing no closing tag. */
  function ReadEvents(p: Platform, rt: Config, block: seq<XmlEvent>): Result<Config>
    decreases |block|
  {
    if |block| == 0 then Ok(rt)
    else
      match ReadEvent(p, rt, block[0])
      case Thrown(e) => Thrown(e)
      case Ok(next) => ReadEvents(p, next, block[1..])
  }

  lemma {:induction false} ReadEventsAppend(p: Platform, rt: Config, a: seq<XmlEvent>, b: seq<XmlEvent>)
    requires ReadEvents(p, rt, a).Ok?
    ensures ReadEvents(p, rt, a + b) == ReadEvents(p, ReadEvents(p, rt, a).value, b)
    decreases |a|
  {
    if |a| > 0 {
      assert (a + b)[0] == a[0] && (a + b)[1..] == a[1..] + b;
      ReadEventsAppend(p, ReadEvent(p, rt, a[0]).value, a[1..], b);
    } else {
      assert a + b == b;
    }
  }

  /** The parser runs through a block without a closing tag as `ReadEvents` does. */
  lemma {:induction false} ReadBodyAcross(p: Platform, events: seq<XmlEvent>, i: nat, rt: Config, block: seq<XmlEvent>)
    requires i + |block| <= |events| && events[i..i + |block|] == block
    requires forall k :: 0 <= k < |block| ==> !IsClosing(block[k])
    requires ReadEvents(p, rt, block).Ok?
    ensures ReadBody(p, events, i, rt) == ReadBody(p, events, i + |block|, ReadEvents(p, rt, block).value)
    decreases |block|
  {
    if |block| > 0 {
      assert events[i] == block[0];
      assert events[i + 1..i + |block|] == block[1..];
      ReadBodyAcross(p, events, i + 1, ReadEvent(p, rt, block[0]).value, block[1..]);
    }
  }

  /** An element with no children has the effect of its start tag. */
  lemma ReadElement(p: Platform, rt: Config, name: string, attrs: seq<Pair>)
    ensures ReadEvents(p, rt, [StartTag(name, attrs), EndTag(name)]) == ReadEvent(p, rt, StartTag(name, attrs))
  {
    var block := [StartTag(name, attrs), EndTag(name)];
    assert block[1..] == [EndTag(name)] && block[1..][1..] == [];
    var start := ReadEvent(p, rt, StartTag(name, attrs));
    if start.Ok? {
      assert ReadEvents(p, start.value, block[1..]) == Ok(start.value);
    }
  }

  /** The `allow` element restores the four persisted flags and the source. */
  lemma ReadAllowRoundTrip(p: Platform, rt: Config, config: Config)
    requires SOURCE_ANYONE <= config.allowFrom <= MAX_SOURCE
    ensures ReadEvents(p, rt, [StartTag(ALLOW_TAG, AllowAttributes(config)), EndTag(ALLOW_TAG)])
            == Ok(rt.(allowCalls := config.allowCalls, allowMessages := config.allowMessages,
                      allowReminders := config.allowReminders, allowEvents := config.allowEvents,
                      allowFrom := config.allowFrom))
  {
    var attrs := AllowAttributes(config);
    assert First(attrs, ALLOW_ATT_CALLS) == Some(BoolToString(config.allowCalls));
    assert First(attrs, ALLOW_ATT_MESSAGES) == First(attrs[1..], ALLOW_ATT_MESSAGES)
        == Some(BoolToString(config.allowMessages));
    assert First(attrs, ALLOW_ATT_REMINDERS) == First(attrs[1..], ALLOW_ATT_REMINDERS)
        == First(attrs[2..], ALLOW_ATT_REMINDERS) == Some(BoolToString(config.allowReminders));
    assert First(attrs, ALLOW_ATT_EVENTS) == First(attrs[1..], ALLOW_ATT_EVENTS)
        == First(attrs[2..], ALLOW_ATT_EVENTS) == First(attrs[3..], ALLOW_ATT_EVENTS)
        == Some(BoolToString(config.allowEvents));
    assert First(attrs, ALLOW_ATT_FROM) == First(attrs[1..], ALLOW_ATT_FROM)
        == First(attrs[2..], ALLOW_ATT_FROM) == First(attrs[3..], ALLOW_ATT_FROM)
        == First(attrs[4..], ALLOW_ATT_FROM) == Some(IntToString(config.allowFrom as int));
    ParseBooleanOfToString(config.allowCalls);
    ParseBooleanOfToString(config.allowMessages);
    ParseBooleanOfToString(config.allowReminders);
    ParseBooleanOfToString(config.allowEvents);
    TryParseIntOfToString(config.allowFrom, SOURCE_ANYONE);
    ReadElement(p, rt, ALLOW_TAG, attrs);
  }

  /** The `manual` element, if any, restores the manual rule. */
  lemma ReadManualRoundTrip(p: Platform, rt: Config, manualRule: Option<Rule>)
    requires manualRule.Some? ==> RuleRoundTrips(p, manualRule.value)
    ensures WriteManual(p, manualRule).Ok?
    ensures ReadEvents(p, rt, WriteManual(p, manualRule).value)
            == Ok(if manualRule.None? then rt else rt.(manualRule := manualRule))
  {
    if manualRule.Some? {
      RuleRoundTrip(p, manualRule.value);
      ReadElement(p, rt, MANUAL_TAG, WriteRuleXml(p, manualRule.value).value);
    }
  }

  /** An automatic rule the reader gives back under its own id. */
  predicate AutomaticRoundTrips(p: Platform, entry: AutomaticEntry) {
    && RuleRoundTrips(p, entry.rule)
    && entry.rule.condition.Some?
    && entry.id != ""
    && p.parseUri(entry.id) == entry.rule.condition.value.id
  }

  /** One `automatic` element under a new key appends its rule. */
  lemma ReadAutomaticElement(p: Platform, rt: Config, e: AutomaticEntry)
    requires AutomaticRoundTrips(p, e)
    requires Get(rt.automaticRules, e.id).None?
    ensures ReadEvents(p, rt, [StartTag(AUTOMATIC_TAG, AutomaticAttributes(p, e.id, e.rule)), EndTag(AUTOMATIC_TAG)])
            == Ok(rt.(automaticRules := rt.automaticRules + [e]))
  {
    var attrs := AutomaticAttributes(p, e.id, e.rule);
    PutAbsentAppends(rt.automaticRules, e.id, e.rule);
    AutomaticRuleRoundTrip(p, e.id, e.rule);
    assert First(attrs, RULE_ATT_ID) == Some(e.id);
    ReadElement(p, rt, AUTOMATIC_TAG, attrs);
  }

  /** The first of a run of uniquely keyed slots is new to those before it. */
  lemma FirstKeyIsNew(before: seq<AutomaticEntry>, entries: seq<AutomaticEntry>)
    requires 0 < |entries| && UniqueKeys(before + entries)
    ensures Get(before, entries[0].id).None?
    ensures before + entries == (before + [entries[0]]) + entries[1..]
  {
    var all := before + entries;
    forall k | 0 <= k < |before|
      ensures before[k].id != entries[0].id
    {
      assert all[k] == before[k] && all[|before|] == entries[0];
    }
  }

  /** The `automatic` elements append their rules, in order, to those read so far. */
  lemma {:induction false} ReadAutomaticRoundTrip(p: Platform, rt: Config, entries: seq<AutomaticEntry>)
    requires forall k :: 0 <= k < |entries| ==> AutomaticRoundTrips(p, entries[k])
    requires UniqueKeys(rt.automaticRules + entries)
    ensures WriteAutomaticRules(p, entries).Ok?
    ensures ReadEvents(p, rt, WriteAutomaticRules(p, entries).value)
            == Ok(rt.(automaticRules := rt.automaticRules + entries))
    decreases |entries|
  {
    if |entries| == 0 {
      assert rt.automaticRules + entries == rt.automaticRules;
    } else {
      var e := entries[0];
      var element := [StartTag(AUTOMATIC_TAG, AutomaticAttributes(p, e.id, e.rule)), EndTag(AUTOMATIC_TAG)];
      var rest := WriteAutomaticRules(p, entries[1..]);
      FirstKeyIsNew(rt.automaticRules, entries);
      ReadAutomaticElement(p, rt, e);
      var next := rt.(automaticRules := rt.automaticRules + [e]);
      assert forall k :: 0 <= k < |entries[1..]| ==> AutomaticRoundTrips(p, entries[1..][k]);
      ReadAutomaticRoundTrip(p, next, entries[1..]);
      assert WriteAutomaticRules(p, entries).value == element + rest.value;
      ReadEventsAppend(p, rt, element, rest.value);
    }
  }

  /** A configuration the writer and reader agree on: a known source, codecs
      that round-trip every rule, and automatic rules whose conditions carry
      their rule ids. */
  predicate ConfigRoundTrips(p: Platform, config: Config) {
    && SOURCE_ANYONE <= config.allowFrom <= MAX_SOURCE
    && (config.manualRule.Some? ==> RuleRoundTrips(p, config.manualRule.value))
    && (forall k :: 0 <= k < |config.automaticRules| ==> AutomaticRoundTrips(p, config.automaticRules[k]))
    && UniqueKeys(config.automaticRules)
  }

  /** Reading the body from a fresh configuration restores everything but
      `allowRepeatCallers`. */
  lemma ReadBodyEvents(p: Platform, config: Config)
    requires ConfigRoundTrips(p, config)
    ensures WriteBody(p, config).Ok?
    ensures ReadEvents(p, DEFAULT_CONFIG, WriteBody(p, config).value) == Ok(config.(allowRepeatCallers := false))
  {
    var allow := [StartTag(ALLOW_TAG, AllowAttributes(config)), EndTag(ALLOW_TAG)];
    var afterAllow := DEFAULT_CONFIG.(allowCalls := config.allowCalls, allowMessages := config.allowMessages,
                                      allowReminders := config.allowReminders, allowEvents := config.allowEvents,
                                      allowFrom := config.allowFrom);
    ReadAllowRoundTrip(p, DEFAULT_CONFIG, config);
    ReadManualRoundTrip(p, afterAllow, config.manualRule);
    var manual := WriteManual(p, config.manualRule).value;
    var afterManual := afterAllow.(manualRule := config.manualRule);
    assert afterManual.automaticRules + config.automaticRules == config.automaticRules;
    ReadAutomaticRoundTrip(p, afterManual, config.automaticRules);
    var automatic := WriteAutomaticRules(p, config.automaticRules).value;
    ReadEventsAppend(p, DEFAULT_CONFIG, allow, manual);
    ReadEventsAppend(p, DEFAULT_CONFIG, allow + manual, automatic);
  }

  /** Writing such a configuration and reading it back restores it, except
      that `allowRepeatCallers`, which is not persisted, comes back false. */
  lemma WriteThenRead(p: Platform, config: Config)
    requires ConfigRoundTrips(p, config)
    ensures WriteXml(p, config).Ok?
    ensures ReadXml(p, WriteXml(p, config).value) == Ok(Loaded(config.(allowRepeatCallers := false)))
  {
    ReadBodyEvents(p, config);
    var block := WriteBody(p, config).value;
    var events := WriteXml(p, config).value;
    ReadBodyAcross(p, events, 1, DEFAULT_CONFIG, block);
    assert IsClosing(events[1 + |block|]);
    TryParseIntOfToString(XML_VERSION, XML_VERSION);
    assert SafeInt(events[0].attributes, ZEN_ATT_VERSION, XML_VERSION) == XML_VERSION;
  }
}

=== FILE: zen_config.dfy ===
/**
 The persisted zen-mode (Do Not Disturb) configuration: global allow flags, an
 optional manual rule and the automatic rules keyed by rule id, together with
 the validity predicates and the fixed table of minute buckets.
 */
module ZenConfig {
  import opened JavaLang
  import opened Framework

  /** Who may interrupt through calls and messages (`allowFrom`). */
  const SOURCE_ANYONE: int32 := 0
  const SOURCE_CONTACT: int32 := 1
  const SOURCE_STAR: int32 := 2
  const MAX_SOURCE: int32 := SOURCE_STAR

  const DEFAULT_ALLOW_REMINDERS: bool := true
  const DEFAULT_ALLOW_EVENTS: bool := true

  /** `ZenModeConfig.ZenRule`: the manual rule or one automatic rule. */
  datatype Rule = Rule(
    enabled: bool,
    snoozing: bool,
    name: Option<string>,
    zenMode: int32,
    conditionId: Option<Uri>,
    condition: Option<Condition>,
    component: Option<ComponentName>)

  /** One key/value slot of the automatic-rule map. */
  datatype AutomaticEntry = AutomaticEntry(id: string, rule: Rule)

  /** `ZenModeConfig`. The automatic rules are the map's slots in iteration order. */
  datatype Config = Config(
    allowCalls: bool,
    allowMessages: bool,
    allowReminders: bool,
    allowEvents: bool,
    allowRepeatCallers: bool,
    allowFrom: int32,
    manualRule: Option<Rule>,
    automaticRules: seq<AutomaticEntry>)

  /** A freshly constructed configuration. */
  const DEFAULT_CONFIG: Config :=
    Config(false, false, DEFAULT_ALLOW_REMINDERS, DEFAULT_ALLOW_EVENTS, false, SOURCE_ANYONE, None, [])

  /** No two slots share a key, as in any map. */
  predicate UniqueKeys(entries: seq<AutomaticEntry>) {
    forall i, j :: 0 <= i < j < |entries| ==> entries[i].id != entries[j].id
  }

  /** `ArrayMap.get`. */
  function Get(entries: seq<AutomaticEntry>, id: string): (r: Option<Rule>)
    ensures r.None? <==> forall k :: 0 <= k < |entries| ==> entries[k].id != id
    ensures r.Some? ==> AutomaticEntry(id, r.value) in entries
  {
    if |entries| == 0 then None
    else if entries[0].id == id then Some(entries[0].rule)
    else Get(entries[1..], id)
  }

  /** `ArrayMap.put`: replaces the rule under an existing key, otherwise adds a slot. */
  function Put(entries: seq<AutomaticEntry>, id: string, rule: Rule): seq<AutomaticEntry> {
    if |entries| == 0 then [AutomaticEntry(id, rule)]
    else if entries[0].id == id then [AutomaticEntry(id, rule)] + entries[1..]
    else [entries[0]] + Put(entries[1..], id, rule)
  }

  /** `Put` has map semantics: the key now maps to the rule, every other key
      keeps its rule, no slot comes from elsewhere, and keys stay unique. */
  lemma {:induction false} PutIsMapUpdate(entries: seq<AutomaticEntry>, id: string, rule: Rule)
    ensures Get(Put(entries, id, rule), id) == Some(rule)
    ensures forall other :: other != id ==> Get(Put(entries, id, rule), other) == Get(entries, other)
    ensures forall e :: e in Put(entries, id, rule) ==> e == AutomaticEntry(id, rule) || e in entries
    ensures UniqueKeys(entries) ==> UniqueKeys(Put(entries, id, rule))
    decreases |entries|
  {
    if |entries| > 0 && entries[0].id != id {
      var rest := Put(entries[1..], id, rule);
      PutIsMapUpdate(entries[1..], id, rule);
      assert Put(entries, id, rule) == [entries[0]] + rest;
      if UniqueKeys(entries) {
        forall k | 0 <= k < |rest|
          ensures rest[k].id != entries[0].id
        {
          assert rest[k] in rest;
          if rest[k] != AutomaticEntry(id, rule) {
            assert rest[k] in entries[1..];
          }
        }
      }
    }
  }

  /** A key not yet present gets a new slot at the end, after all existing ones. */
  lemma {:induction false} PutAbsentAppends(entries: seq<AutomaticEntry>, id: string, rule: Rule)
    requires Get(entries, id).None?
    ensures Put(entries, id, rule) == entries + [AutomaticEntry(id, rule)]
    decreases |entries|
  {
    if |entries| > 0 {
      assert Get(entries[1..], id).None?;
      PutAbsentAppends(entries[1..], id, rule);
      assert entries == [entries[0]] + entries[1..];
    }
  }

  /** `getAutomaticRuleNames`: the set of the automatic rules' names. */
  function AutomaticRuleNames(entries: seq<AutomaticEntry>): (names: set<Option<string>>)
    ensures forall n :: n in names <==> exists k :: 0 <= k < |entries| && entries[k].rule.name == n
    ensures |names| <= |entries|
  {
    if |entries| == 0 then {}
    else AutomaticRuleNames(entries[1..]) + {entries[0].rule.name}
  }

  /** `sameCondition`: a rule's condition, if it has one, carries exactly the
      rule's condition id; with no condition id there may be no condition. */
  function SameCondition(rule: Rule): (b: bool)
    ensures b <==> (rule.condition.Some? ==> rule.conditionId == Some(rule.condition.value.id))
  {
    if rule.conditionId.None? then rule.condition.None?
    else rule.condition.None? || rule.conditionId.value == rule.condition.value.id
  }

  /** `isValidManualRule`: no manual rule, or one with a valid zen mode and a
      consistent condition. */
  function IsValidManualRule(p: Platform, rule: Option<Rule>): (b: bool)
    ensures rule.None? ==> b
    ensures rule.Some? && rule.value.conditionId.None? && rule.value.condition.Some? ==> !b
    ensures rule.Some? && !p.isValidZenMode(rule.value.zenMode) ==> !b
    ensures b <==> rule.None? || (&& p.isValidZenMode(rule.value.zenMode)
                                  && (rule.value.condition.Some? ==>
                                        rule.value.conditionId == Some(rule.value.condition.value.id)))
  {
    rule.None? || (p.isValidZenMode(rule.value.zenMode) && SameCondition(rule.value))
  }

  /** `isValidAutomaticRule`: a non-empty name, a valid zen mode, a condition id
      and a condition consistent with it. */
  function IsValidAutomaticRule(p: Platform, rule: Rule): (b: bool)
    ensures b ==> IsValidManualRule(p, Some(rule))
    ensures b ==> rule.conditionId.Some?
    ensures rule.name.None? || rule.name == Some("") ==> !b
    ensures b && rule.condition.Some? ==> rule.condition.value.id == rule.conditionId.value
    ensures b <==> !IsEmpty(rule.name) && IsValidManualRule(p, Some(rule)) && rule.conditionId.Some?
  {
    && !IsEmpty(rule.name)
    && p.isValidZenMode(rule.zenMode)
    && rule.conditionId.Some?
    && SameCondition(rule)
  }

  /** The validity invariant of a configuration, stated over all automatic rules at once. */
  predicate ConfigValid(p: Platform, config: Config) {
    && IsValidManualRule(p, config.manualRule)
    && forall k :: 0 <= k < |config.automaticRules| ==> IsValidAutomaticRule(p, config.automaticRules[k].rule)
  }

  /** `isValid`: checks the manual rule, then the automatic rules one by one,
      stopping at the first invalid one. */
  method IsValid(p: Platform, config: Config) returns (valid: bool)
    ensures valid <==> ConfigValid(p, config)
  {
    if !IsValidManualRule(p, config.manualRule) {
      return false;
    }
    var rules := config.automaticRules;
    var i := 0;
    while i < |rules|
      invariant 0 <= i <= |rules|
      invariant forall k :: 0 <= k < i ==> IsValidAutomaticRule(p, rules[k].rule)
    {
      if !IsValidAutomaticRule(p, rules[i].rule) {
        return false;
      }
      i := i + 1;
    }
    return true;
  }

  /** `generateMinuteBuckets`: the durations, in minutes, offered by the
      duration picker: three quarter hours, then every whole hour up to twelve. */
  method GenerateMinuteBuckets() returns (buckets: seq<int>)
    ensures buckets == [15, 30, 45, 60, 120, 180, 240, 300, 360, 420, 480, 540, 600, 660, 720]
    ensures forall i :: 1 <= i <= 12 ==> buckets[2 + i] == 60 * i
    ensures forall i, j :: 0 <= i < j < |buckets| ==> buckets[i] < buckets[j]
  {
    var maxHrs := 12;
    var a := new int[maxHrs + 3];
    a[0] := 15;
    a[1] := 30;
    a[2] := 45;
    for i := 1 to maxHrs + 1
      invariant a[0] == 15 && a[1] == 30 && a[2] == 45
      invariant forall k :: 3 <= k < 2 + i ==> a[k] == 60 * (k - 2)
    {
      a[2 + i] := 60 * i;
    }
    buckets := a[..];
    assert buckets[3] == 60 && buckets[4] == 120 && buckets[5] == 180 && buckets[6] == 240;
    assert buckets[7] == 300 && buckets[8] == 360 && buckets[9] == 420 && buckets[10] == 480;
    assert buckets[11] == 540 && buckets[12] == 600 && buckets[13] == 660 && buckets[14] == 720;
  }
}

=== FILE: zen_xml.dfy ===
/**
 The XML persistence of the zen-mode configuration over a flat list of pull
 parser events. A start tag carries its attributes in document order and an
 attribute lookup returns the first one of that name; the end of the list is
 the end of the document. Writing produces the events a pull parser would
 report for the serialised document.
 */
module ZenXml {
  import opened JavaLang
  import opened NameValue
  import opened Decimal
  import opened Framework
  import opened ZenConfig
  import opened DayLists

  datatype XmlEvent =
    | StartTag(name: string, attributes: seq<Pair>)
    | EndTag(name: string)
    | Text(text: string)

  const XML_VERSION: int32 := 2
  const ZEN_TAG: string := "zen"
  const ZEN_ATT_VERSION: string := "version"
  const ALLOW_TAG: string := "allow"
  const ALLOW_ATT_CALLS: string := "calls"
  const ALLOW_ATT_MESSAGES: string := "messages"
  const ALLOW_ATT_FROM: string := "from"
  const ALLOW_ATT_REMINDERS: string := "reminders"
  const ALLOW_ATT_EVENTS: string := "events"

  const CONDITION_ATT_ID: string := "id"
  const CONDITION_ATT_SUMMARY: string := "summary"
  const CONDITION_ATT_LINE1: string := "line1"
  const CONDITION_ATT_LINE2: string := "line2"
  const CONDITION_ATT_ICON: string := "icon"
  const CONDITION_ATT_STATE: string := "state"
  const CONDITION_ATT_FLAGS: string := "flags"

  const CONDITION_ATTRIBUTES: seq<string> :=
    [CONDITION_ATT_ID, CONDITION_ATT_SUMMARY, CONDITION_ATT_LINE1, CONDITION_ATT_LINE2,
     CONDITION_ATT_ICON, CONDITION_ATT_STATE, CONDITION_ATT_FLAGS]

  const MANUAL_TAG: string := "manual"
  const AUTOMATIC_TAG: string := "automatic"

  /** The rule id shares its attribute name with the condition id. */
  const RULE_ATT_ID: string := "id"
  const RULE_ATT_ENABLED: string := "enabled"
  const RULE_ATT_SNOOZING: string := "snoozing"
  const RULE_ATT_NAME: string := "name"
  const RULE_ATT_COMPONENT: string := "component"
  const RULE_ATT_ZEN: string := "zen"
  const RULE_ATT_CONDITION_ID: string := "conditionId"

  /** `Boolean.toString`. */
  function BoolToString(b: bool): string {
    if b then "true" else "false"
  }

  function ToLowerAscii(c: char): char {
    if 'A' <= c <= 'Z' then (c as int - 'A' as int + 'a' as int) as char else c
  }

  /** `Boolean.valueOf(String)` on a non-null string: "true" in any letter case. */
  function ParseBoolean(s: string): (b: bool)
    ensures b <==> |s| == 4 && s[0] in "tT" && s[1] in "rR" && s[2] in "uU" && s[3] in "eE"
    ensures s == "TRUE" || s == "True" ==> b
  {
    |s| == 4 && ToLowerAscii(s[0]) == 't' && ToLowerAscii(s[1]) == 'r'
      && ToLowerAscii(s[2]) == 'u' && ToLowerAscii(s[3]) == 'e'
  }

  /** `Boolean.toString` and `Boolean.valueOf` are inverse. */
  lemma ParseBooleanOfToString(b: bool)
    ensures ParseBoolean(BoolToString(b)) == b
  {
  }

  /** `safeBoolean`: the default for a missing or empty attribute, otherwise
      whether it reads "true". */
  function SafeBoolean(attrs: seq<Pair>, att: string, defValue: bool): (r: bool)
    ensures IsEmpty(First(attrs, att)) ==> r == defValue
    ensures First(attrs, att) == Some(BoolToString(true)) ==> r
    ensures First(attrs, att) == Some(BoolToString(false)) ==> !r
    ensures !IsEmpty(First(attrs, att)) ==> r == ParseBoolean(First(attrs, att).value)
  {
    var v := First(attrs, att);
    if IsEmpty(v) then defValue else ParseBoolean(v.value)
  }

  /** `safeInt`. */
  function SafeInt(attrs: seq<Pair>, att: string, defValue: int32): (r: int32)
    ensures First(attrs, att).None? ==> r == defValue
    ensures r == defValue || ParseInt(First(attrs, att).value) == Some(r)
    ensures First(attrs, att).Some? && ParseInt(First(attrs, att).value).Some? ==>
              r == ParseInt(First(attrs, att).value).value
    ensures First(attrs, att).Some? && ParseInt(First(attrs, att).value).None? ==> r == defValue
  {
    TryParseInt(First(attrs, att), defValue)
  }

  /** `safeComponentName`: null for a missing or empty attribute. */
  function SafeComponentName(p: Platform, attrs: seq<Pair>, att: string): (r: Option<ComponentName>)
    ensures IsEmpty(First(attrs, att)) ==> r.None?
    ensures !IsEmpty(First(attrs, att)) ==> r == p.unflattenComponent(First(attrs, att).value)
  {
    var v := First(attrs, att);
    if IsEmpty(v) then None else p.unflattenComponent(v.value)
  }

  /** `safeUri`: null for a missing or empty attribute. */
  function SafeUri(p: Platform, attrs: seq<Pair>, att: string): (r: Option<Uri>)
    ensures r.None? <==> IsEmpty(First(attrs, att))
    ensures r.Some? ==> r.value == p.parseUri(First(attrs, att).value)
  {
    var v := First(attrs, att);
    if IsEmpty(v) then None else Some(p.parseUri(v.value))
  }

  /** `tryParseZenMode`: the int the attribute spells if the platform accepts
      it as a zen mode, otherwise the default. */
  function TryParseZenMode(p: Platform, value: Option<string>, defValue: int32): (r: int32)
    ensures r == defValue || (p.isValidZenMode(r) && value.Some? && ParseInt(value.value) == Some(r))
    ensures value.Some? && ParseInt(value.value).Some? && p.isValidZenMode(ParseInt(value.value).value) ==>
              r == ParseInt(value.value).value
    ensures value.None? || ParseInt(value.value).None? ==> r == defValue
  {
    var mode := TryParseInt(value, defValue);
    if p.isValidZenMode(mode) then mode else defValue
  }

  /** `readConditionXml`: the condition whose attributes sit on the current tag;
      null when the id attribute is missing or empty, or when the `Condition`
      constructor rejects the values. Missing ints default to -1. */
  function ReadConditionXml(p: Platform, attrs: seq<Pair>): (r: Option<Condition>)
    ensures IsEmpty(First(attrs, CONDITION_ATT_ID)) ==> r.None?
    ensures r.Some? ==> p.acceptsCondition(r.value)
    ensures r.Some? ==> && r.value.id == p.parseUri(First(attrs, CONDITION_ATT_ID).value)
                        && r.value.summary == First(attrs, CONDITION_ATT_SUMMARY)
                        && r.value.line1 == First(attrs, CONDITION_ATT_LINE1)
                        && r.value.line2 == First(attrs, CONDITION_ATT_LINE2)
    ensures r.Some? ==> && r.value.icon == SafeInt(attrs, CONDITION_ATT_ICON, -1)
                        && r.value.state == SafeInt(attrs, CONDITION_ATT_STATE, -1)
                        && r.value.flags == SafeInt(attrs, CONDITION_ATT_FLAGS, -1)
    ensures r.Some? && First(attrs, CONDITION_ATT_ICON).None? ==> r.value.icon == -1
    ensures r.Some? && First(attrs, CONDITION_ATT_STATE).None? ==> r.value.state == -1
    ensures r.Some? && First(attrs, CONDITION_ATT_FLAGS).None? ==> r.value.flags == -1
    ensures !IsEmpty(First(attrs, CONDITION_ATT_ID)) ==>
              (r.Some? <==> p.acceptsCondition(Condition(
                              p.parseUri(First(attrs, CONDITION_ATT_ID).value),
                              First(attrs, CONDITION_ATT_SUMMARY),
                              First(attrs, CONDITION_ATT_LINE1),
                              First(attrs, CONDITION_ATT_LINE2),
                              SafeInt(attrs, CONDITION_ATT_ICON, -1),
                              SafeInt(attrs, CONDITION_ATT_STATE, -1),
                              SafeInt(attrs, CONDITION_ATT_FLAGS, -1))))
  {
    var id := SafeUri(p, attrs, CONDITION_ATT_ID);
    if id.None? then None
    else
      var condition := Condition(
        id.value,
        First(attrs, CONDITION_ATT_SUMMARY),
        First(attrs, CONDITION_ATT_LINE1),
        First(attrs, CONDITION_ATT_LINE2),
        SafeInt(attrs, CONDITION_ATT_ICON, -1),
        SafeInt(attrs, CONDITION_ATT_STATE, -1),
        SafeInt(attrs, CONDITION_ATT_FLAGS, -1));
      if p.acceptsCondition(condition) then Some(condition) else None
  }

  /** A condition whose strings are all present; the serializer throws on a
      null attribute value. */
  predicate HasAllStrings(c: Condition) {
    c.summary.Some? && c.line1.Some? && c.line2.Some?
  }

  /** A condition's attributes from their rendered values, in writing order. */
  function ConditionAttributeList(id: string, summary: string, line1: string, line2: string,
                                  icon: string, state: string, flags: string): seq<Pair> {
    [Pair(CONDITION_ATT_ID, id), Pair(CONDITION_ATT_SUMMARY, summary),
     Pair(CONDITION_ATT_LINE1, line1), Pair(CONDITION_ATT_LINE2, line2),
     Pair(CONDITION_ATT_ICON, icon), Pair(CONDITION_ATT_STATE, state), Pair(CONDITION_ATT_FLAGS, flags)]
  }

  /** Each attribute of the list is found with its value. */
  lemma ConditionAttributeListLookup(id: string, summary: string, line1: string, line2: string,
                                     icon: string, state: string, flags: string)
    ensures var attrs := ConditionAttributeList(id, summary, line1, line2, icon, state, flags);
            && First(attrs, CONDITION_ATT_ID) == Some(id)
            && First(attrs, CONDITION_ATT_SUMMARY) == Some(summary)
            && First(attrs, CONDITION_ATT_LINE1) == Some(line1)
            && First(attrs, CONDITION_ATT_LINE2) == Some(line2)
            && First(attrs, CONDITION_ATT_ICON) == Some(icon)
            && First(attrs, CONDITION_ATT_STATE) == Some(state)
            && First(attrs, CONDITION_ATT_FLAGS) == Some(flags)
  {
    var attrs := ConditionAttributeList(id, summary, line1, line2, icon, state, flags);
    assert First(attrs, CONDITION_ATT_FLAGS) == First(attrs[1..], CONDITION_ATT_FLAGS)
        == First(attrs[2..], CONDITION_ATT_FLAGS) == First(attrs[3..], CONDITION_ATT_FLAGS)
        == First(attrs[4..], CONDITION_ATT_FLAGS) == First(attrs[5..], CONDITION_ATT_FLAGS)
        == First(attrs[6..], CONDITION_ATT_FLAGS);
    assert First(attrs, CONDITION_ATT_STATE) == First(attrs[1..], CONDITION_ATT_STATE)
        == First(attrs[2..], CONDITION_ATT_STATE) == First(attrs[3..], CONDITION_ATT_STATE)
        == First(attrs[4..], CONDITION_ATT_STATE) == First(attrs[5..], CONDITION_ATT_STATE);
    assert First(attrs, CONDITION_ATT_ICON) == First(attrs[1..], CONDITION_ATT_ICON)
        == First(attrs[2..], CONDITION_ATT_ICON) == First(attrs[3..], CONDITION_ATT_ICON)
        == First(attrs[4..], CONDITION_ATT_ICON);
    assert First(attrs, CONDITION_ATT_LINE2) == First(attrs[1..], CONDITION_ATT_LINE2)
        == First(attrs[2..], CONDITION_ATT_LINE2) == First(attrs[3..], CONDITION_ATT_LINE2);
    assert First(attrs, CONDITION_ATT_LINE1) == First(attrs[1..], CONDITION_ATT_LINE1)
        == First(attrs[2..], CONDITION_ATT_LINE1);
  }

  /** A condition's attributes use the condition's names only. */
  lemma ConditionAttributeListNames(id: string, summary: string, line1: string, line2: string,
                                    icon: string, state: string, flags: string)
    ensures var attrs := ConditionAttributeList(id, summary, line1, line2, icon, state, flags);
            forall k :: 0 <= k < |attrs| ==> attrs[k].name in CONDITION_ATTRIBUTES
  {
  }

  /** `writeConditionXml`: the condition's attributes in writing order. */
  function WriteConditionXml(p: Platform, c: Condition): (r: Result<seq<Pair>>)
    ensures r.Ok? <==> HasAllStrings(c)
    ensures r.Thrown? ==> r.exception == NullPointerException
    ensures r.Ok? ==> |r.value| == 7 && r.value[0] == Pair(CONDITION_ATT_ID, p.uriToString(c.id))
  {
    if !HasAllStrings(c) then Thrown(NullPointerException)
    else
      Ok(ConditionAttributeList(p.uriToString(c.id), c.summary.value, c.line1.value, c.line2.value,
                                IntToString(c.icon as int), IntToString(c.state as int), IntToString(c.flags as int)))
  }

  /** `readRuleXml`: enabled defaults to true and snoozing to false; the rule is
      null when its zen mode is missing or not a valid zen mode, or when a
      condition is required and none can be read. */
  function ReadRuleXml(p: Platform, attrs: seq<Pair>, conditionRequired: bool): (r: Option<Rule>)
    ensures First(attrs, RULE_ATT_ZEN).None? ==> r.None?
    ensures r.Some? <==> TryParseZenMode(p, First(attrs, RULE_ATT_ZEN), -1) != -1
                         && (!conditionRequired || ReadConditionXml(p, attrs).Some?)
    ensures r.Some? ==> p.isValidZenMode(r.value.zenMode) && r.value.zenMode != -1
    ensures r.Some? ==> ParseInt(First(attrs, RULE_ATT_ZEN).value) == Some(r.value.zenMode)
    ensures conditionRequired && ReadConditionXml(p, attrs).None? ==> r.None?
    ensures r.Some? ==> r.value.condition == ReadConditionXml(p, attrs)
    ensures r.Some? ==> r.value.name == First(attrs, RULE_ATT_NAME)
    ensures r.Some? && IsEmpty(First(attrs, RULE_ATT_ENABLED)) ==> r.value.enabled
    ensures r.Some? && IsEmpty(First(attrs, RULE_ATT_SNOOZING)) ==> !r.value.snoozing
    ensures r.Some? ==> && r.value.enabled == SafeBoolean(attrs, RULE_ATT_ENABLED, true)
                        && r.value.snoozing == SafeBoolean(attrs, RULE_ATT_SNOOZING, false)
                        && r.value.conditionId == SafeUri(p, attrs, RULE_ATT_CONDITION_ID)
                        && r.value.component == SafeComponentName(p, attrs, RULE_ATT_COMPONENT)
  {
    var enabled := SafeBoolean(attrs, RULE_ATT_ENABLED, true);
    var snoozing := SafeBoolean(attrs, RULE_ATT_SNOOZING, false);
    var name := First(attrs, RULE_ATT_NAME);
    var zenMode := TryParseZenMode(p, First(attrs, RULE_ATT_ZEN), -1);
    if zenMode == -1 then None
    else
      var rule := Rule(
        enabled,
        snoozing,
        name,
        zenMode,
        SafeUri(p, attrs, RULE_ATT_CONDITION_ID),
        ReadConditionXml(p, attrs),
        SafeComponentName(p, attrs, RULE_ATT_COMPONENT));
      if rule.condition.Some? || !conditionRequired then Some(rule) else None
  }

  /** A rule the serializer can write: its condition, if any, has all strings. */
  predicate Writable(rule: Rule) {
    rule.condition.None? || HasAllStrings(rule.condition.value)
  }

  function OptionalPair(name: string, value: Option<string>): seq<Pair> {
    if value.None? then [] else [Pair(name, value.value)]
  }

  /** The flattened component, if any. */
  function ComponentText(p: Platform, component: Option<ComponentName>): Option<string> {
    if component.None? then None else Some(p.flattenComponent(component.value))
  }

  /** The Uri's string form, if any. */
  function UriText(p: Platform, uri: Option<Uri>): Option<string> {
    if uri.None? then None else Some(p.uriToString(uri.value))
  }

  /** The rule's own attributes, before those of its condition. */
  function RuleAttributes(p: Platform, rule: Rule): seq<Pair> {
    RuleAttributeList(BoolToString(rule.enabled), BoolToString(rule.snoozing), rule.name,
                      IntToString(rule.zenMode as int), ComponentText(p, rule.component),
                      UriText(p, rule.conditionId))
  }

  /** The rule's own attributes from their rendered values. */
  function RuleAttributeList(enabled: string, snoozing: string, name: Option<string>, zen: string,
                             component: Option<string>, conditionId: Option<string>): seq<Pair> {
    [Pair(RULE_ATT_ENABLED, enabled), Pair(RULE_ATT_SNOOZING, snoozing)]
    + (OptionalPair(RULE_ATT_NAME, name)
       + ([Pair(RULE_ATT_ZEN, zen)]
          + (OptionalPair(RULE_ATT_COMPONENT, component)
             + OptionalPair(RULE_ATT_CONDITION_ID, conditionId))))
  }

  /** Each attribute of the list is found with its value. */
  lemma RuleAttributeListLookup(enabled: string, snoozing: string, name: Option<string>, zen: string,
                                component: Option<string>, conditionId: Option<string>)
    ensures var attrs := RuleAttributeList(enabled, snoozing, name, zen, component, conditionId);
            && First(attrs, RULE_ATT_ENABLED) == Some(enabled)
            && First(attrs, RULE_ATT_SNOOZING) == Some(snoozing)
            && First(attrs, RULE_ATT_NAME) == name
            && First(attrs, RULE_ATT_ZEN) == Some(zen)
            && First(attrs, RULE_ATT_COMPONENT) == component
            && First(attrs, RULE_ATT_CONDITION_ID) == conditionId
  {
    var a := [Pair(RULE_ATT_ENABLED, enabled), Pair(RULE_ATT_SNOOZING, snoozing)];
    var n := OptionalPair(RULE_ATT_NAME, name);
    var z := [Pair(RULE_ATT_ZEN, zen)];
    var c := OptionalPair(RULE_ATT_COMPONENT, component);
    var i := OptionalPair(RULE_ATT_CONDITION_ID, conditionId);
    FirstOfAppend(a, n + (z + (c + i)), RULE_ATT_NAME);
    FirstOfAppend(a, n + (z + (c + i)), RULE_ATT_ZEN);
    FirstOfAppend(a, n + (z + (c + i)), RULE_ATT_COMPONENT);
    FirstOfAppend(a, n + (z + (c + i)), RULE_ATT_CONDITION_ID);
    FirstOfAppend(n, z + (c + i), RULE_ATT_NAME);
    FirstOfAppend(z, c + i, RULE_ATT_NAME);
    FirstOfAppend(c, i, RULE_ATT_NAME);
    FirstOfAppend(n, z + (c + i), RULE_ATT_ZEN);
    FirstOfAppend(n, z + (c + i), RULE_ATT_COMPONENT);
    FirstOfAppend(z, c + i, RULE_ATT_COMPONENT);
    FirstOfAppend(c, i, RULE_ATT_COMPONENT);
    FirstOfAppend(n, z + (c + i), RULE_ATT_CONDITION_ID);
    FirstOfAppend(z, c + i, RULE_ATT_CONDITION_ID);
    FirstOfAppend(c, i, RULE_ATT_CONDITION_ID);
  }

  const RULE_ATTRIBUTES: set<string> :=
    {RULE_ATT_ENABLED, RULE_ATT_SNOOZING, RULE_ATT_NAME, RULE_ATT_ZEN, RULE_ATT_COMPONENT, RULE_ATT_CONDITION_ID}

  /** A rule's own attributes use the rule's names only, none of which a
      condition uses. */
  lemma RuleAttributeListNames(enabled: string, snoozing: string, name: Option<string>, zen: string,
                               component: Option<string>, conditionId: Option<string>)
    ensures var attrs := RuleAttributeList(enabled, snoozing, name, zen, component, conditionId);
            forall k :: 0 <= k < |attrs| ==> attrs[k].name in RULE_ATTRIBUTES
    ensures forall att :: att in CONDITION_ATTRIBUTES ==> att !in RULE_ATTRIBUTES
  {
  }

  /** `writeRuleXml`: enabled, snoozing and zen always; name, component and
      condition id only when present; then the condition's attributes. */
  function WriteRuleXml(p: Platform, rule: Rule): (r: Result<seq<Pair>>)
    ensures r.Ok? <==> Writable(rule)
    ensures r.Thrown? ==> r.exception == NullPointerException
    ensures r.Ok? ==> |RuleAttributes(p, rule)| <= |r.value|
                      && r.value[..|RuleAttributes(p, rule)|] == RuleAttributes(p, rule)
    ensures r.Ok? ==> (|r.value| == |RuleAttributes(p, rule)| <==> rule.condition.None?)
  {
    var head := RuleAttributes(p, rule);
    if rule.condition.None? then Ok(head)
    else
      match WriteConditionXml(p, rule.condition.value)
      case Thrown(e) => Thrown(e)
      case Ok(c) =>
        assert (head + c)[..|head|] == head;
        Ok(head + c)
  }

  /** What `readXml` returns without throwing: null for a document whose
      first event is not a `zen` start tag, the hand-over to the version-1
      migration, or a configuration. */
  datatype ReadOutcome = NoConfig | LegacyVersion | Loaded(config: Config)

  predicate IsClosing(e: XmlEvent) {
    e.EndTag? && e.name == ZEN_TAG
  }

  /** An `allow` tag whose source is outside anyone..starred. */
  predicate IsBadAllow(e: XmlEvent) {
    && e.StartTag? && e.name == ALLOW_TAG
    && var from := SafeInt(e.attributes, ALLOW_ATT_FROM, SOURCE_ANYONE);
       from < SOURCE_ANYONE || from > MAX_SOURCE
  }

  /** The position of the first closing `zen` tag at or after `i`, or the
      length of the list when there is none. */
  function CloseIndex(events: seq<XmlEvent>, i: nat): (k: nat)
    requires i <= |events|
    ensures i <= k <= |events|
    ensures k < |events| ==> IsClosing(events[k])
    ensures forall j :: i <= j < k ==> !IsClosing(events[j])
    decreases |events| - i
  {
    if i == |events| || IsClosing(events[i]) then i else CloseIndex(events, i + 1)
  }

  predicate BadAllowBetween(events: seq<XmlEvent>, i: nat, k: nat)
    requires i <= k <= |events|
  {
    exists j :: i <= j < k && IsBadAllow(events[j])
  }

  /** The effect of one `allow` tag on the configuration being read: calls and
      messages default to off, reminders and events to on, the source to anyone;
      the rules and the repeat-callers flag are untouched. */
  function ReadAllow(rt: Config, attrs: seq<Pair>): (r: Config)
    ensures IsEmpty(First(attrs, ALLOW_ATT_CALLS)) ==> !r.allowCalls
    ensures IsEmpty(First(attrs, ALLOW_ATT_MESSAGES)) ==> !r.allowMessages
    ensures IsEmpty(First(attrs, ALLOW_ATT_REMINDERS)) ==> r.allowReminders
    ensures IsEmpty(First(attrs, ALLOW_ATT_EVENTS)) ==> r.allowEvents
    ensures First(attrs, ALLOW_ATT_FROM).None? ==> r.allowFrom == SOURCE_ANYONE
    ensures && r.allowCalls == SafeBoolean(attrs, ALLOW_ATT_CALLS, false)
            && r.allowMessages == SafeBoolean(attrs, ALLOW_ATT_MESSAGES, false)
            && r.allowReminders == SafeBoolean(attrs, ALLOW_ATT_REMINDERS, true)
            && r.allowEvents == SafeBoolean(attrs, ALLOW_ATT_EVENTS, true)
            && r.allowFrom == SafeInt(attrs, ALLOW_ATT_FROM, SOURCE_ANYONE)
    ensures && r.allowRepeatCallers == rt.allowRepeatCallers
            && r.manualRule == rt.manualRule
            && r.automaticRules == rt.automaticRules
  {
    rt.(allowCalls := SafeBoolean(attrs, ALLOW_ATT_CALLS, false),
        allowMessages := SafeBoolean(attrs, ALLOW_ATT_MESSAGES, false),
        allowReminders := SafeBoolean(attrs, ALLOW_ATT_REMINDERS, DEFAULT_ALLOW_REMINDERS),
        allowEvents := SafeBoolean(attrs, ALLOW_ATT_EVENTS, DEFAULT_ALLOW_EVENTS),
        allowFrom := SafeInt(attrs, ALLOW_ATT_FROM, SOURCE_ANYONE))
  }

  /** The effect of one `automatic` tag: its rule is stored under its id
      unless the id is missing or the rule could not be read. */
  function ReadAutomatic(p: Platform, rt: Config, attrs: seq<Pair>): (r: Config)
    ensures First(attrs, RULE_ATT_ID).None? || ReadRuleXml(p, attrs, true).None? ==> r == rt
    ensures First(attrs, RULE_ATT_ID).Some? && ReadRuleXml(p, attrs, true).Some? ==>
              && Get(r.automaticRules, First(attrs, RULE_ATT_ID).value) == ReadRuleXml(p, attrs, true)
              && (forall other :: other != First(attrs, RULE_ATT_ID).value ==>
                    Get(r.automaticRules, other) == Get(rt.automaticRules, other))
    ensures r.(automaticRules := rt.automaticRules) == rt
  {
    var id := First(attrs, RULE_ATT_ID);
    var rule := ReadRuleXml(p, attrs, true);
    if id.Some? && rule.Some? then
      PutIsMapUpdate(rt.automaticRules, id.value, rule.value);
      rt.(automaticRules := Put(rt.automaticRules, id.value, rule.value))
    else rt
  }

  /** One event of the loop of `readXml` before the closing `zen` tag: an
      `allow` tag sets the five persisted flags and throws
      IndexOutOfBoundsException for a bad source, a `manual` tag replaces the
      manual rule (with null when it cannot be read), an `automatic` tag may
      add a rule, and anything else is skipped. */
  function ReadEvent(p: Platform, rt: Config, e: XmlEvent): (r: Result<Config>)
    ensures r.Thrown? <==> IsBadAllow(e)
    ensures r.Thrown? ==> r.exception == IndexOutOfBoundsException
    ensures r.Ok? && e.StartTag? && e.name == ALLOW_TAG ==> SOURCE_ANYONE <= r.value.allowFrom <= MAX_SOURCE
    ensures r.Ok? && !(e.StartTag? && e.name == ALLOW_TAG) ==> r.value.allowFrom == rt.allowFrom
    ensures r.Ok? && e.StartTag? && e.name == ALLOW_TAG ==> r.value == ReadAllow(rt, e.attributes)
    ensures e.StartTag? && e.name == MANUAL_TAG ==> r == Ok(rt.(manualRule := ReadRuleXml(p, e.attributes, false)))
    ensures e.StartTag? && e.name == AUTOMATIC_TAG ==> r == Ok(ReadAutomatic(p, rt, e.attributes))
    ensures !e.StartTag? || (e.name != ALLOW_TAG && e.name != MANUAL_TAG && e.name != AUTOMATIC_TAG) ==> r == Ok(rt)
  {
    match e
    case StartTag(name, attrs) =>
      if name == ALLOW_TAG then
        var next := ReadAllow(rt, attrs);
        if next.allowFrom < SOURCE_ANYONE || next.allowFrom > MAX_SOURCE then Thrown(IndexOutOfBoundsException)
        else Ok(next)
      else if name == MANUAL_TAG then Ok(rt.(manualRule := ReadRuleXml(p, attrs, false)))
      else if name == AUTOMATIC_TAG then Ok(ReadAutomatic(p, rt, attrs))
      else Ok(rt)
    case _ => Ok(rt)
  }

  /** The loop of `readXml` from event `i` on, with the configuration read so
      far. Running out of events throws IllegalStateException. */
  function ReadBody(p: Platform, events: seq<XmlEvent>, i: nat, rt: Config): (r: Result<ReadOutcome>)
    requires i <= |events|
    ensures r.Ok? ==> r.value.Loaded?
    ensures r.Thrown? ==> r.exception != NullPointerException
    decreases |events| - i
  {
    if i == |events| then Thrown(IllegalStateException)
    else if IsClosing(events[i]) then Ok(Loaded(rt))
    else
      match ReadEvent(p, rt, events[i])
      case Thrown(e) => Thrown(e)
      case Ok(next) => ReadBody(p, events, i + 1, next)
  }

  /** The loop returns at the first closing `zen` tag unless an `allow` tag
      with a bad source comes before it, which throws
      IndexOutOfBoundsException; with no closing tag and no bad source it
      throws IllegalStateException. */
  lemma {:induction false} ReadBodyOutcome(p: Platform, events: seq<XmlEvent>, i: nat, rt: Config)
    requires i <= |events|
    ensures var r := ReadBody(p, events, i, rt);
            var k := CloseIndex(events, i);
            && (r.Ok? <==> k < |events| && !BadAllowBetween(events, i, k))
            && (r == Thrown(IndexOutOfBoundsException) <==> BadAllowBetween(events, i, k))
            && (r == Thrown(IllegalStateException) <==> k == |events| && !BadAllowBetween(events, i, k))
    decreases |events| - i
  {
    if i < |events| && !IsClosing(events[i]) {
      var k := CloseIndex(events, i);
      assert k == CloseIndex(events, i + 1);
      var step := ReadEvent(p, rt, events[i]);
      if step.Ok? {
        ReadBodyOutcome(p, events, i + 1, step.value);
        assert BadAllowBetween(events, i, k) <==> BadAllowBetween(events, i + 1, k) by {
          if BadAllowBetween(events, i, k) {
            var j :| i <= j < k && IsBadAllow(events[j]);
            assert j != i;
          }
        }
      } else {
        assert BadAllowBetween(events, i, k);
      }
    }
  }

  /** `readXml`. */
  function ReadXml(p: Platform, events: seq<XmlEvent>): (r: Result<ReadOutcome>)
    ensures r == Ok(NoConfig) <==> |events| == 0 || !events[0].StartTag? || events[0].name != ZEN_TAG
    ensures r == Ok(LegacyVersion) <==>
              0 < |events| && events[0].StartTag? && events[0].name == ZEN_TAG
              && SafeInt(events[0].attributes, ZEN_ATT_VERSION, XML_VERSION) == 1
    ensures && 0 < |events| && events[0].StartTag? && events[0].name == ZEN_TAG
            && SafeInt(events[0].attributes, ZEN_ATT_VERSION, XML_VERSION) != 1
            ==> var k := CloseIndex(events, 1);
                && (r.Ok? <==> k < |events| && !BadAllowBetween(events, 1, k))
                && (r.Ok? ==> r.value.Loaded?)
                && (r == Thrown(IndexOutOfBoundsException) <==> BadAllowBetween(events, 1, k))
                && (r == Thrown(IllegalStateException) <==> k == |events| && !BadAllowBetween(events, 1, k))
  {
    if |events| == 0 || !events[0].StartTag? || events[0].name != ZEN_TAG then Ok(NoConfig)
    else if SafeInt(events[0].attributes, ZEN_ATT_VERSION, XML_VERSION) == 1 then Ok(LegacyVersion)
    else
      ReadBodyOutcome(p, events, 1, DEFAULT_CONFIG);
      ReadBody(p, events, 1, DEFAULT_CONFIG)
  }

  /** Events other than `allow` tags leave the five persisted flags and the
      repeat-callers flag as they were; a closing tag ahead means the loop
      returns. */
  lemma {:induction false} ReadBodyWithoutAllow(p: Platform, events: seq<XmlEvent>, i: nat, rt: Config)
    requires i <= |events|
    requires CloseIndex(events, i) < |events|
    requires forall j :: i <= j < CloseIndex(events, i) ==> !(events[j].StartTag? && events[j].name == ALLOW_TAG)
    ensures ReadBody(p, events, i, rt).Ok?
    ensures var c := ReadBody(p, events, i, rt).value.config;
            && c.allowCalls == rt.allowCalls && c.allowMessages == rt.allowMessages
            && c.allowReminders == rt.allowReminders && c.allowEvents == rt.allowEvents
            && c.allowFrom == rt.allowFrom && c.allowRepeatCallers == rt.allowRepeatCallers
    decreases |events| - i
  {
    if !IsClosing(events[i]) {
      var next := ReadEvent(p, rt, events[i]);
      assert next.Ok?;
      assert CloseIndex(events, i) == CloseIndex(events, i + 1);
      ReadBodyWithoutAllow(p, events, i + 1, next.value);
    }
  }

  /** A version-2 document without an `allow` tag keeps the defaults of a
      fresh configuration: calls and messages off, reminders and events on,
      senders from anyone. */
  lemma ReadXmlWithoutAllow(p: Platform, events: seq<XmlEvent>)
    requires 0 < |events| && events[0].StartTag? && events[0].name == ZEN_TAG
    requires SafeInt(events[0].attributes, ZEN_ATT_VERSION, XML_VERSION) != 1
    requires CloseIndex(events, 1) < |events|
    requires forall j :: 1 <= j < CloseIndex(events, 1) ==> !(events[j].StartTag? && events[j].name == ALLOW_TAG)
    ensures ReadXml(p, events).Ok? && ReadXml(p, events).value.Loaded?
    ensures var c := ReadXml(p, events).value.config;
            && !c.allowCalls && !c.allowMessages && c.allowReminders && c.allowEvents
            && c.allowFrom == SOURCE_ANYONE && !c.allowRepeatCallers
  {
    ReadBodyWithoutAllow(p, events, 1, DEFAULT_CONFIG);
  }

  /** An empty `zen` element reads as a fresh configuration. */
  lemma ReadXmlEmptyDocument(p: Platform)
    ensures ReadXml(p, [StartTag(ZEN_TAG, []), EndTag(ZEN_TAG)])
            == Ok(Loaded(Config(false, false, true, true, false, SOURCE_ANYONE, None, [])))
  {
    var events := [StartTag(ZEN_TAG, []), EndTag(ZEN_TAG)];
    assert First(events[0].attributes, ZEN_ATT_VERSION).None?;
    assert IsClosing(events[1]);
  }

  /** What any configuration the reader produces satisfies: unique rule ids,
      a known source, no repeat callers (never read), a readable zen mode on
      every rule and a condition on every automatic rule. */
  predicate ReadInvariant(p: Platform, c: Config) {
    && UniqueKeys(c.automaticRules)
    && SOURCE_ANYONE <= c.allowFrom <= MAX_SOURCE
    && !c.allowRepeatCallers
    && (c.manualRule.Some? ==> p.isValidZenMode(c.manualRule.value.zenMode))
    && forall k :: 0 <= k < |c.automaticRules| ==>
         c.automaticRules[k].rule.condition.Some? && p.isValidZenMode(c.automaticRules[k].rule.zenMode)
  }

  lemma ReadEventKeepsInvariant(p: Platform, rt: Config, e: XmlEvent)
    requires ReadInvariant(p, rt)
    requires ReadEvent(p, rt, e).Ok?
    ensures ReadInvariant(p, ReadEvent(p, rt, e).value)
  {
    if e.StartTag? && e.name == AUTOMATIC_TAG {
      var id := First(e.attributes, RULE_ATT_ID);
      var rule := ReadRuleXml(p, e.attributes, true);
      if id.Some? && rule.Some? {
        var next := Put(rt.automaticRules, id.value, rule.value);
        PutIsMapUpdate(rt.automaticRules, id.value, rule.value);
        forall k | 0 <= k < |next|
          ensures next[k].rule.condition.Some? && p.isValidZenMode(next[k].rule.zenMode)
        {
          assert next[k] in next;
          if next[k] != AutomaticEntry(id.value, rule.value) {
            var j :| 0 <= j < |rt.automaticRules| && rt.automaticRules[j] == next[k];
          }
        }
      }
    }
  }

  lemma {:induction false} ReadBodyKeepsInvariant(p: Platform, events: seq<XmlEvent>, i: nat, rt: Config)
    requires i <= |events|
    requires ReadInvariant(p, rt)
    ensures ReadBody(p, events, i, rt).Ok? ==> ReadInvariant(p, ReadBody(p, events, i, rt).value.config)
    decreases |events| - i
  {
    if i < |events| && !IsClosing(events[i]) && ReadEvent(p, rt, events[i]).Ok? {
      ReadEventKeepsInvariant(p, rt, events[i]);
      ReadBodyKeepsInvariant(p, events, i + 1, ReadEvent(p, rt, events[i]).value);
    }
  }

  /** Whatever the document, a configuration read from it satisfies the invariant. */
  lemma ReadXmlInvariant(p: Platform, events: seq<XmlEvent>)
    ensures var r := ReadXml(p, events);
            r.Ok? && r.value.Loaded? ==> ReadInvariant(p, r.value.config)
  {
    if 0 < |events| && events[0].StartTag? && events[0].name == ZEN_TAG {
      ReadBodyKeepsInvariant(p, events, 1, DEFAULT_CONFIG);
    }
  }

  function AllowAttributes(config: Config): seq<Pair> {
    [Pair(ALLOW_ATT_CALLS, BoolToString(config.allowCalls)),
     Pair(ALLOW_ATT_MESSAGES, BoolToString(config.allowMessages)),
     Pair(ALLOW_ATT_REMINDERS, BoolToString(config.allowReminders)),
     Pair(ALLOW_ATT_EVENTS, BoolToString(config.allowEvents)),
     Pair(ALLOW_ATT_FROM, IntToString(config.allowFrom as int))]
  }

  /** The `manual` element, if there is a manual rule. */
  function WriteManual(p: Platform, manualRule: Option<Rule>): (r: Result<seq<XmlEvent>>)
    ensures r.Ok? <==> manualRule.None? || Writable(manualRule.value)
    ensures manualRule.None? ==> r == Ok([])
    ensures r.Ok? && manualRule.Some? ==>
              r.value == [StartTag(MANUAL_TAG, WriteRuleXml(p, manualRule.value).value), EndTag(MANUAL_TAG)]
    ensures r.Thrown? ==> r.exception == NullPointerException
    ensures r.Ok? ==> forall k :: 0 <= k < |r.value| ==> !IsClosing(r.value[k])
  {
    if manualRule.None? then Ok([])
    else
      match WriteRuleXml(p, manualRule.value)
      case Thrown(e) => Thrown(e)
      case Ok(attrs) => Ok([StartTag(MANUAL_TAG, attrs), EndTag(MANUAL_TAG)])
  }

  /** One `automatic` element per slot, in map order, each led by its rule id. */
  function WriteAutomaticRules(p: Platform, entries: seq<AutomaticEntry>): (r: Result<seq<XmlEvent>>)
    ensures r.Ok? <==> forall k :: 0 <= k < |entries| ==> Writable(entries[k].rule)
    ensures r.Thrown? ==> r.exception == NullPointerException
    ensures r.Ok? ==> |r.value| == 2 * |entries|
    ensures r.Ok? ==> forall k :: 0 <= k < |r.value| ==> !IsClosing(r.value[k])
  {
    if |entries| == 0 then Ok([])
    else
      match WriteRuleXml(p, entries[0].rule)
      case Thrown(e) => Thrown(e)
      case Ok(attrs) =>
        match WriteAutomaticRules(p, entries[1..])
        case Thrown(e) => Thrown(e)
        case Ok(rest) =>
          Ok([StartTag(AUTOMATIC_TAG, [Pair(RULE_ATT_ID, entries[0].id)] + attrs), EndTag(AUTOMATIC_TAG)] + rest)
  }

  /** Indexing into a concatenation past its first part. */
  lemma ConcatIndex<T>(a: seq<T>, b: seq<T>, j: nat)
    requires |a| <= j < |a| + |b|
    ensures (a + b)[j] == b[j - |a|]
  {
  }

  /** A non-empty map is written as its first slot's element followed by the
      rest of the map. */
  lemma WriteAutomaticRulesStep(p: Platform, entries: seq<AutomaticEntry>)
    requires 0 < |entries|
    requires WriteAutomaticRules(p, entries).Ok?
    ensures WriteRuleXml(p, entries[0].rule).Ok? && WriteAutomaticRules(p, entries[1..]).Ok?
    ensures WriteAutomaticRules(p, entries).value
            == [StartTag(AUTOMATIC_TAG, [Pair(RULE_ATT_ID, entries[0].id)] + WriteRuleXml(p, entries[0].rule).value),
                EndTag(AUTOMATIC_TAG)]
               + WriteAutomaticRules(p, entries[1..]).value
  {
  }

  /** Event `2k` is the start tag of slot `k`. */
  lemma {:induction false} WriteAutomaticRulesStartTag(p: Platform, entries: seq<AutomaticEntry>, k: nat)
    requires k < |entries|
    requires WriteAutomaticRules(p, entries).Ok?
    ensures WriteRuleXml(p, entries[k].rule).Ok?
    ensures WriteAutomaticRules(p, entries).value[2 * k]
            == StartTag(AUTOMATIC_TAG, [Pair(RULE_ATT_ID, entries[k].id)] + WriteRuleXml(p, entries[k].rule).value)
    decreases k
  {
    WriteAutomaticRulesStep(p, entries);
    if k > 0 {
      WriteAutomaticRulesStartTag(p, entries[1..], k - 1);
      var tail := WriteAutomaticRules(p, entries[1..]).value;
      var first := [StartTag(AUTOMATIC_TAG, [Pair(RULE_ATT_ID, entries[0].id)] + WriteRuleXml(p, entries[0].rule).value),
                    EndTag(AUTOMATIC_TAG)];
      ConcatIndex(first, tail, 2 * k);
      assert entries[1..][k - 1] == entries[k];
    }
  }

  /** Event `2k + 1` is the end tag of slot `k`. */
  lemma {:induction false} WriteAutomaticRulesEndTag(p: Platform, entries: seq<AutomaticEntry>, k: nat)
    requires k < |entries|
    requires WriteAutomaticRules(p, entries).Ok?
    ensures WriteAutomaticRules(p, entries).value[2 * k + 1] == EndTag(AUTOMATIC_TAG)
    decreases k
  {
    WriteAutomaticRulesStep(p, entries);
    if k > 0 {
      WriteAutomaticRulesEndTag(p, entries[1..], k - 1);
      var tail := WriteAutomaticRules(p, entries[1..]).value;
      var first := [StartTag(AUTOMATIC_TAG, [Pair(RULE_ATT_ID, entries[0].id)] + WriteRuleXml(p, entries[0].rule).value),
                    EndTag(AUTOMATIC_TAG)];
      ConcatIndex(first, tail, 2 * k + 1);
    }
  }

  /** Slot `k` of the map is written as events `2k` and `2k + 1`: an
      `automatic` start tag carrying the slot's id and then the rule's
      attributes, and its end tag. */
  lemma WriteAutomaticRulesLayout(p: Platform, entries: seq<AutomaticEntry>, k: nat)
    requires k < |entries|
    requires WriteAutomaticRules(p, entries).Ok?
    ensures WriteRuleXml(p, entries[k].rule).Ok?
    ensures var events := WriteAutomaticRules(p, entries).value;
            && events[2 * k] == StartTag(AUTOMATIC_TAG, [Pair(RULE_ATT_ID, entries[k].id)] + WriteRuleXml(p, entries[k].rule).value)
            && events[2 * k + 1] == EndTag(AUTOMATIC_TAG)
  {
    WriteAutomaticRulesStartTag(p, entries, k);
    WriteAutomaticRulesEndTag(p, entries, k);
  }

  /** The children of the `zen` element: `allow`, then `manual` if there is a
      manual rule, then one `automatic` per slot. */
  function WriteBody(p: Platform, config: Config): (r: Result<seq<XmlEvent>>)
    ensures r.Ok? <==> (config.manualRule.None? || Writable(config.manualRule.value))
                       && forall k :: 0 <= k < |config.automaticRules| ==> Writable(config.automaticRules[k].rule)
    ensures r.Thrown? ==> r.exception == NullPointerException
    ensures r.Ok? ==> forall k :: 0 <= k < |r.value| ==> !IsClosing(r.value[k])
    ensures r.Ok? ==> |r.value| == 2 + (if config.manualRule.Some? then 2 else 0) + 2 * |config.automaticRules|
  {
    match WriteManual(p, config.manualRule)
    case Thrown(e) => Thrown(e)
    case Ok(manual) =>
      match WriteAutomaticRules(p, config.automaticRules)
      case Thrown(e) => Thrown(e)
      case Ok(automatic) =>
        Ok([StartTag(ALLOW_TAG, AllowAttributes(config)), EndTag(ALLOW_TAG)] + manual + automatic)
  }

  /** `writeXml`: the `zen` element, version 2, around the body. */
  function WriteXml(p: Platform, config: Config): (r: Result<seq<XmlEvent>>)
    ensures r.Ok? <==> WriteBody(p, config).Ok?
    ensures r.Thrown? ==> r.exception == NullPointerException
    ensures r.Ok? ==> && |r.value| == |WriteBody(p, config).value| + 2
                      && r.value[0] == StartTag(ZEN_TAG, [Pair(ZEN_ATT_VERSION, "2")])
                      && r.value[1..|r.value| - 1] == WriteBody(p, config).value
                      && r.value[|r.value| - 1] == EndTag(ZEN_TAG)
  {
    match WriteBody(p, config)
    case Thrown(e) => Thrown(e)
    case Ok(body) =>
      var events := [StartTag(ZEN_TAG, [Pair(ZEN_ATT_VERSION, IntToString(XML_VERSION as int))])] + body + [EndTag(ZEN_TAG)];
      assert events[1..|events| - 1] == body;
      Ok(events)
  }
}
